=== FILE: README.md ===
# A Dafny model of the scaffolder's generation engine

`scaffolder` materializes a destination file tree from a template tree.
Entry names, file contents and symbolic-link targets are Go templates,
rendered against a context. A directory can "fan out" into several
sibling copies, each with its own sub-context. Entries can be excluded by
regular expressions. Plugins can change the configuration before the walk
and are told about every directory and file after it is written. Symbolic
links are recorded during the walk and created only at the end, each
after the recorded link its target names.

This project models that engine (`Scaffold`, `scaffold`, `scaffoldEntry`,
`applySymlinks`, the option constructors) and the tree walker `WalkDir`.
Everything runs on an in-memory file system. Template rendering and
regular expressions are uninterpreted functions.

## Modules

- `Results` (results.dfy): `Option`, `Result`.
- `Enumeration` (results.dfy): `Enumerate`, an arbitrary listing of a set. It stands for Go's map iteration order.
- `Paths` (paths.dfy): absolute paths as lists of clean segments.
  - `Resolve(base, text)` is `filepath.Clean(filepath.Join(base, text))`.
  - `Rel` is `filepath.Rel` on absolute paths.
  - `TrimTemplateSuffix` is `strings.TrimSuffix(path, ".tmpl")` read as the operating system reads the resulting text: a last segment that trims to "", "." or ".." names the directory itself or its parent.
- `FileSystem` (filesystem.dfy): the destination as `map<Path, Node>`, with `os.Mkdir`, `os.MkdirAll`, `os.WriteFile`, `os.Remove`, `os.Symlink`, and link-following reads (`Deref`, which reads absolute link text from the root and relative text from the link's directory).
- `Templates` (templates.dfy):
  - context values;
  - the function table, including the `dir` recorder;
  - the `Engine` record: `render`, `validPattern`, `matches`;
  - the exclusion test `MatchExcludes`.
- `SourceTree` (source_tree.dfy): the template tree as `os.ReadDir` lists it.
- `Effects` (effects.dfy): the observable trace (`Extend` calls, materialized entries, `AfterEach` calls) and the error kinds.
- `Options` (options.dfy): `Functions`, `Extend`, `Exclude`, `AfterEach`, `ExtensionFunc`, `AfterEachExtensionFunc`, and the `Extend` phase.
- `Symlinks` (symlinks.dfy): the deferred-link resolver.
  - `Apply` is `applySymlinks`.
  - `LinkAll` is the loop that drives it when no chain of records is cyclic.
  - `LinkLoop` is the same loop over all the records, cyclic ones included.
  - The section on ranks and chains proves that a decreasing rank exists exactly when no chain of records is cyclic.
- `Scaffolder` (scaffolder.dfy): the walk (`ScaffoldDir`, `ScaffoldEntries`, `ScaffoldOne`, `FanOutAll`, `ScaffoldEntry`) and `Scaffold`.
- `Walk` (walk.dfy): `WalkDir` over a tree with a callback.
- `Scenarios` (scenarios.dfy): the run that `TestScaffolder` checks, worked through from options to links.

The walk is stated as ghost functions, because each Go map loop visits its
keys in an order the model does not fix. Every property about a loop over
a map is proved for whatever order `Enumerate` picks.

Three behaviours of the code deserve a note:

- The comment on `Extend` (scaffolder.go:70-73) says an extension can
  modify the template context. A plugin can replace the context in the
  configuration, but `Scaffold` passes the caller's `ctx` to the walk
  (scaffolder.go:129). So a replaced context is never used
  (`Scaffolder.ExtendedContextUnused`). A change made in place does
  reach the walk: `Config.Context` (scaffolder.go:108) and that `ctx` are
  one value, so a plugin that updates a map or pointer context, such as
  the `map[string]any` the package's test passes (scaffolder_test.go:14-16),
  changes what the walk renders. The model's values cannot be changed in
  place, so it expresses only the replacement.
- Templates are rendered one entry name at a time (scaffolder.go:171).
  The directories above an entry are not re-rendered with it.
- `applySymlinks` recurses on the target before it deletes the record
  (scaffolder.go:268, 271). Nothing stops a cycle, including a link to
  itself. Reaching such a record makes the recursion unbounded, and the Go
  runtime kills the process with a fatal stack-overflow error. Records
  reached earlier in map order are resolved first, and an error among
  them returns before the cycle is reached. The model's `Diverges`
  outcome stands for the crash (`Symlinks.LinkLoop`,
  `Scaffolder.ScaffoldDiverges`, `Symlinks.SelfLinkNeverLeaves`).

## Model

| member | source | states |
|---|---|---|
| Options.ExtensionFunc | scaffolder.go:27-31 | The extension's `Extend` is the given function and its `AfterEach` always succeeds. |
| Options.AfterEachExtensionFunc | scaffolder.go:33-37 | The extension's `Extend` leaves the configuration as it is and its `AfterEach` is the given function. |
| Options.ApplyOptionsSpec | scaffolder.go:61-116 | Options apply in order. A function name gets the binding of the last `Functions` option that names it, else keeps the old one. Exclusion patterns and plugins (from `Extend` and `AfterEach` alike) are appended in option order. The context and the roots are untouched. |
| Options.ExtendAll | scaffolder.go:118-122 | Each plugin's `Extend` is called once, in order, on the configuration the previous one left. Without error the result is that fold over all plugins. The first error stops the loop: it names that plugin and carries the reason its `Extend` gave on the configuration folded so far. The trace holds exactly the calls made. In the model the roots are kept. |
| Options.ExtendedByFirst | scaffolder.go:118-122 | Folding the plugins from the back agrees with applying the first plugin and folding the rest, so the fold is the loop's left-to-right order. |
| Options.ExtendAllSucceeds | scaffolder.go:118-122 | When no `Extend` fails, every plugin is called exactly once, in registration order. |
| Templates.MatchExcludes | scaffolder.go:158-164 | An error names a configured pattern that does not compile. Exclusion implies that some pattern matches. |
| Templates.MatchExcludesSpec | scaffolder.go:157-164 | An entry is excluded iff some valid pattern matches before any invalid pattern is reached. It is an error iff an invalid pattern is reached first, and the error is that pattern. Otherwise every pattern is valid and none matches. |
| Templates.MatchExcludesIffSomeMatch | scaffolder.go:158-163 | With all patterns valid, an entry is excluded iff some pattern matches its source-relative path. |
| Templates.FirstInvalid | scaffolder.go:159-160 | The first invalid pattern reached before any match is the error returned. |
| Paths.ResolveSegment | scaffolder.go:156 | Joining a directory-entry name onto a directory appends it as the last segment. |
| Paths.RelResolves | scaffolder.go:215-221 | The relative text `Rel` produces is not absolute, and resolving it from the base gives back the target. |
| Paths.TrimRemovesOneSuffix | scaffolder.go:180 | Exactly one ".tmpl" is removed: "x.tmpl.tmpl" becomes "x.tmpl". |
| Paths.JoinTrimmed | scaffolder.go:179-180 | The destination of a plain name is `dstDir/name`, without its one ".tmpl" suffix if it has one. A name whose stem is "" or "." names `dstDir` itself, and a stem ".." names its parent. |
| Paths.ResolveDots | scaffolder.go:179-180 | Joining "", "." or ".." onto a directory gives the directory, the directory, and its parent. |
| FileSystem.Mkdir | scaffolder.go:151-153 | Creates one directory with mode 0700 iff nothing is at the path and the parent is a directory. When something is already there the error is "exists", which the walk ignores. |
| FileSystem.MkdirAll | scaffolder.go:226-228 | On success the path is a directory, nothing is removed, and only the path and its missing ancestors are added, each with mode 0700. An existing directory is left as it is. |
| FileSystem.WriteFile | scaffolder.go:245-248 | Writes the content at the path and changes nothing else. A new file gets the given mode; an existing regular file keeps its mode. Writing onto a directory fails. |
| FileSystem.Remove | scaffolder.go:272-275 | Succeeds iff something other than a non-empty directory (or the root) is there, and then removes exactly that path. A missing path is "not found". |
| FileSystem.Symlink | scaffolder.go:276 | Creates a link holding the given text iff the text is not empty, nothing is at the path and the parent is a directory. Empty text is refused as not found (ENOENT), before the path is looked at, as Linux's `symlink(2)` does. |
| Scaffolder.EntryFuncs | scaffolder.go:165-170 | An entry's templates see the configured functions, but "dir" is always the entry's recorder. |
| Scaffolder.RecordedSpec | scaffolder.go:166-169 | The `subDirs` map has one key per name `dir` was called with, holding the context of the last call with that name. |
| Scaffolder.Decide | scaffolder.go:156-180 | Exclusion is decided before the name is rendered, and an invalid pattern is an error. A name that fails to render is an error, and one that renders empty is dropped. Otherwise the name gives one destination when `dir` was not called: `dstDir/name` minus one ".tmpl", read as a path, so that a stem "." or ".." names `dstDir` or its parent. When `dir` was called it gives a fan-out over exactly the recorded names. |
| Scaffolder.AfterEachAll | scaffolder.go:229-233 | Every plugin's `AfterEach` runs on the path, in order, until the first failure, which names that plugin. |
| Scaffolder.AfterEachStep | scaffolder.go:249-253 | The step succeeds iff every plugin accepts the path. It never changes the file system or the link records: plugins are modelled without effects on the file system. |
| Scaffolder.StoredTarget | scaffolder.go:214-221 | The stored target is never absolute. A relative target is stored verbatim. An absolute one is made relative to the link's directory and still names the same place. |
| Scaffolder.EntryPlacements | scaffolder.go:165-196 | With no `dir` call, the entry is placed once, at `dstDir/name` minus one ".tmpl", with the parent context. With `dir` calls and no error, it is placed once per distinct name, at `dstDir/name` with the last context given for that name, and nowhere else. |
| Scaffolder.EntryPlacedOnce | scaffolder.go:201-259 | One `scaffoldEntry` call places its source exactly once, at its destination. |
| Scaffolder.FanOutPlacements | scaffolder.go:192-196 | The fan-out places the entry once per name in loop order, at `dstDir/name` with that name's context. An error cuts the list short. |
| Scaffolder.CallsPlaced | scaffolder.go:166-196 | Fanning out over any listing of the recorded names reaches exactly the last call of each name. |
| Scaffolder.DirUnder | scaffolder.go:146-199 | Everything a walk of `srcDir` materializes comes from strictly below `srcDir`. |
| Scaffolder.SymlinkEntry | scaffolder.go:203-223 | A link entry writes nothing and runs no plugin. It fails iff its target fails to render. Otherwise it records, for its destination, relative text that points where the rendered target points. |
| Scaffolder.DirectoryEntry | scaffolder.go:225-234 | On success the destination is a directory (mode 0700 when new, for plugins without effects on the file system), and every plugin has accepted it, in order, before the walk into it. An existing directory is walked into unchanged. A failed `MkdirAll` is the error. |
| Scaffolder.RegularEntry | scaffolder.go:236-253 | Success iff the content renders, the write succeeds and every plugin accepts the path. On success exactly `dst` changes, to the rendered content with the source mode (an existing file keeps its mode; for plugins without effects on the file system), and the plugins ran in order. A render failure writes nothing. |
| Scaffolder.OtherEntry | scaffolder.go:255-256 | Any other kind of entry is an "unsupported type" error, and nothing is written. |
| Scaffolder.EntryDropped | scaffolder.go:157-177 | An excluded entry, or one whose name renders empty, is skipped with its whole subtree: nothing is written, recorded or traced. |
| Scaffolder.OnlyDroppedLeaveNoTrace | scaffolder.go:154-196 | Conversely, an entry that fails nothing and leaves no trace was excluded or rendered empty. |
| Scaffolder.MatchedBeforeInvalid | scaffolder.go:158-163 | A valid pattern that matches excludes the entry, even if an invalid pattern follows it. |
| Scaffolder.InvalidPatternFails | scaffolder.go:158-161 | An invalid pattern reached before any match stops the walk with that pattern, and nothing is written. |
| Scaffolder.DirLands | scaffolder.go:146-259 | When a walk succeeds, each destination it materialized exists or has a link recorded for it. |
| Scaffolder.LinkPhase | scaffolder.go:133-137 | The deferred-link loop always finishes when every chain of records leaves the records. It crashes only when some chain is cyclic. A cyclic chain means a crash or a link error, whichever map order reaches first. |
| Scaffolder.LinkPhaseAcyclic | scaffolder.go:133-137 | With acyclic records, the loop over every record is the rank-ordered `LinkAll` over the map listing. |
| Scaffolder.ExtendFailureWritesNothing | scaffolder.go:118-122 | A failing `Extend` aborts the run before any write. No entry is materialized, and the trace holds the `Extend` calls up to and including the failing one. |
| Scaffolder.ExtendBeforeWalk | scaffolder.go:118-129 | Otherwise every `Extend` runs once, in order, before the walk, and the walk reads the roots the caller gave. |
| Scaffolder.ExtensionsReachWalk | scaffolder.go:118-129 | After successful `Extend` calls, every entry's templates see exactly the functions the plugins left bound, apart from "dir", and the walk tests exactly the exclusion patterns they left. |
| Scaffolder.ExtendedContextUnused | scaffolder.go:129 | The walk uses the caller's context, whatever context the plugins leave in the configuration. A context changed in place is not expressed. |
| Scaffolder.LinksAfterWalk | scaffolder.go:133-137 | With acyclic records, a run without error makes every recorded path a link holding exactly its stored text, each after the recorded link its target names, and leaves every other path alone. |
| Scaffolder.ScaffoldSucceeds | scaffolder.go:103-139 | A run without error means the plugins and the walk succeeded and the records were acyclic. Every link is then correct and in order, and, for plugins without effects on the file system, every materialized destination exists at the end. |
| Scaffolder.ScaffoldDiverges | scaffolder.go:129-137 | A run crashes only when the plugins and the walk succeeded and no rank orders the link records, that is, some chain is cyclic. Such records make the run crash, or fail with a link error when map order reaches a failing record first. |
| Symlinks.Relink | scaffolder.go:271-276 | The record is deleted. Anything at the path except a non-empty directory is removed, and a link holding the stored text is created. It fails iff that removal or the creation fails, and the creation fails on empty text. |
| Symlinks.Apply | scaffolder.go:262-277 | An unrecorded path is a no-op. Otherwise the path is unrecorded afterwards unless an error stopped it. Every record resolved is reached from the path by following recorded targets, and the others are kept. |
| Symlinks.LinkAll | scaffolder.go:133-137 | On success no path of the listing is still recorded. |
| Symlinks.LinkAllSpec | scaffolder.go:133-137 | For any listing of the records, success leaves no record. Every recorded path is then a link holding its stored text, made after its target's link, and every other path is unchanged. |
| Symlinks.RankedIffChainsLeave | scaffolder.go:262-270 | A decreasing rank on the records exists iff every chain of records reaches an unrecorded path. |
| Symlinks.LeavingClosed | scaffolder.go:263-268 | The target of a record whose chain leaves is again such a record, or unrecorded. The target of a record whose chain is cyclic is recorded and cyclic too. |
| Symlinks.LinkLoop | scaffolder.go:133-137 | The loop crashes only when the listing reaches a cyclic record with no error before it. If the listing holds a cyclic record, the loop either crashes or stops with an error. Records are only ever resolved, never added or changed. |
| Symlinks.LinkLoopAcyclic | scaffolder.go:133-137 | With no cyclic record, the loop never crashes and ends as `LinkAll` does. |
| Symlinks.SelfLinkNeverLeaves | scaffolder.go:263-268 | A link to itself is a chain that never leaves the records, and no rank orders it. |
| Walk.WalkDir | walkdir.go:17-46 | The root is visited first. `ErrSkip` on it returns nil, and any other error from it is returned at once. A root that is not a directory, and that the callback accepts, fails to be listed. On a directory, the calls follow the pruned pre-order up to and including the first call that fails (an error other than `ErrSkip`), and that call's error is returned. When no call fails, every call is made and nil is returned. `ErrSkip` is never returned, and there are never more calls than entries. |
| Walk.WalkEntries | walkdir.go:32-44 | Children are taken in listing order: directories by recursion, others by one call. The calls follow the children's pruned pre-orders up to and including the first call that fails, and that error is returned. `ErrSkip` moves on to the next child. When no call fails, every call is made and nil is returned. |
| Walk.WalkChild | walkdir.go:33-43 | One child costs at least one call and no more calls than its entries. With `ErrSkip` read as nil, its calls follow its pruned pre-order up to and including the first failing call, whose error it returns. A leaf's own error is returned. When no call fails, the child makes all its calls. |
| Walk.NoErrorsVisitsAll | walkdir.go:17-46 | When the callback never fails, every entry is visited once, in pre-order. |
| Walk.StopsAtFirstFailure | walkdir.go:22-44 | If the k-th call along the pruned pre-order is the first to fail, the walk makes exactly the first k+1 calls and returns that call's error. |
| Walk.NilIffNoFailure | walkdir.go:17-46 | The walk of a directory returns nil exactly when no call along its pruned pre-order fails. |
| Walk.SkippedDirectoryHidesSubtree | walkdir.go:22-25 | `ErrSkip` on a directory hides all its descendants, and its walk returns nil. |
| Scenarios.ChainedLinks | scaffolder.go:133-137 | Two records where `a` names `b` and `b` names a path outside the records are acyclic, so the loop finishes. Without error, `b` is linked before `a` whatever the map order, and reading `a` follows both links to what `b` names. |
| Scenarios.EmptyTextRecord | scaffolder.go:133-137 | A link whose target renders to empty text is recorded as "". The loop removes what sat at its path, `os.Symlink` fails as not found, and the run ends with a link error and nothing linked. |
| Scenarios.TestScaffolder | scaffolder_test.go:12-26 | No options and an empty destination give exactly the directory, `regular-test` (mode 0600, content "Hello, test!\n") and `symlink-test`, which reads as that file. |

## Left out

- Reading the source tree (`os.ReadDir`, `entry.Info`, `os.Readlink`, `os.ReadFile`, `os.Stat`) cannot fail in the model. The tree is given as a value, so those error paths are not modelled.
- Roots are absolute, cleaned paths. Relative roots, and the failure of `filepath.Rel` (scaffolder.go:157, 216), do not arise.
- The process umask is not modelled. Modes are the ones passed to the calls.
- The model's file system never follows a symbolic link inside a path. `os.WriteFile` onto an existing link replaces the link with a file, where Go writes through it. `MkdirAll`'s test that a path is a directory, and the parent tests of `Mkdir`, `WriteFile` and `Symlink`, do not see through a link either, where Go's calls stat through it.
- Scaffolder.EntryPlacements: `dir` calls made while rendering a file's content or a link's target are ignored. In Go they add to the same `subDirs` map. Without a fan-out this matters: the entry is placed once at its destination (scaffolder.go:188), and then the loop at scaffolder.go:192-196 places it again at `dstDir/name` for every name recorded that way. During a fan-out such calls change the map while it is being iterated.
- Scaffolder.Decide: a name whose stem after trimming is "", "." or ".." gives the path the text names once cleaned. Go keeps the uncleaned text, such as `dir/.`, as the key of a link record and as the path given to `AfterEach`. Removing such a link record's path before making the link fails in Go, because the operating system will not remove `.` or `..`; the model applies `Remove` to the cleaned path, which succeeds when that directory is empty.
- Options.ExtendAll: a plugin that replaces the whole `Config` value (scaffolder.go:119 hands it a pointer) zeroes or changes the unexported source and target roots in Go, and scaffolder.go:157 then matches the exclusion patterns against a path relative to that new source. The model keeps the caller's roots, because its paths are absolute and cannot hold the zero value.
- In the model a plugin's `Extend` returns a new configuration and has no other effect. In Go it mutates the shared configuration in place, and aliasing between plugins is not modelled.
- Scaffolder.ExtendedContextUnused: a context changed in place is not modelled. In Go `Config.Context` (scaffolder.go:108) and the `ctx` the walk receives at scaffolder.go:129 are one value, so a plugin that changes a map or pointer context in place changes what every later render sees; the JavaScript extension hands that value to its scripts (extensions/javascript/javascript.go:68). The model's `Value` is immutable, so only replacing the context is expressed, and a replacement never reaches the walk.
- Scaffolder.AfterEachStep: plugins are modelled without effects on the file system. `AfterEach` is a function from the path to a status. In Go it runs arbitrary code, and its comment names setting file permissions as the use (scaffolder.go:89-92). That the step leaves the file system unchanged holds for such plugins only; a chmod, a write or a removal by a plugin is not modelled.
- Scaffolder.DirectoryEntry: "mode 0700 when new" holds for plugins without effects on the file system. A plugin that changes the directory's mode or removes it is not modelled.
- Scaffolder.RegularEntry: "with the source mode" and the written content hold for plugins without effects on the file system. A plugin that changes the file's mode or content, or removes it, is not modelled.
- Scaffolder.ScaffoldSucceeds: "every materialized destination exists at the end" holds for plugins without effects on the file system. A plugin that removes or moves an entry it was called for is not modelled.
- The JavaScript extension (extensions/javascript/javascript.go) is not part of this model. Its only effect on the core is one more exclusion pattern, `^<quoted script path>$` (extensions/javascript/javascript.go:56), which any `Exclude` option covers.
- The command-line tool, the test helpers, and the internals of `text/template` and `regexp` are not modelled. Nor is the text of error messages: errors are kinds carrying the path, pattern or plugin involved.
- `testdata/template` is not part of this model. `Scenarios` uses a two-entry tree that yields the listing the test expects: a templated file, and a link to it whose target is the same templated name.
- Scaffolder.EntryPlacements: the fan-out half is stated for runs that end without error. An error cuts the list short, as `Scaffolder.FanOutPlacements` states.
- A fan-out whose names repeat is modelled through the `subDirs` map, so a repeated name is one key. This matches the Go map.

=== FILE: effects.dfy ===
/** What a scaffolding run does that callers can observe, and how it fails. */
module Effects {
  import opened Paths
  import opened Templates
  import FileSystem

  /**
   * The trace of a run: a plugin's `Extend` called, a source entry
   * materialized at a destination with a context (one `scaffoldEntry`
   * call), a plugin's `AfterEach` called on a destination path.
   */
  datatype Event =
    | ExtendCalled(plugin: nat)
    | Materialized(src: Path, dst: Path, ctx: Value)
    | AfterEachCalled(plugin: nat, path: Path)

  /** The error kinds `Scaffold` returns (scaffolder.go:103-277). */
  datatype Error =
    | ExtendFailed(plugin: nat, reason: string)
    | InvalidExclude(pattern: string)
    | NameTemplateFailed(src: Path)
    | TargetTemplateFailed(src: Path)
    | ContentTemplateFailed(src: Path)
    | CreateDirFailed(cause: FileSystem.FsError)
    | WriteFailed(cause: FileSystem.FsError)
    | UnsupportedType(src: Path)
    | AfterEachFailed(plugin: nat, path: Path, reason: string)
    | LinkFailed(cause: FileSystem.FsError)
}

=== FILE: filesystem.dfy ===
/**
 * The destination file system as an immutable map from cleaned absolute
 * paths to nodes, with the handful of `os` calls the scaffolder makes.  The
 * root "/" ([]) always exists and is a directory.
 */
module FileSystem {
  import opened Paths
  import opened Results

  /** Permission bits as `os.FileMode` carries them. */
  type Mode = nat

  /** `0700`: owner read, write and search; every created directory gets it. */
  const DirMode: Mode := 448

  datatype Node =
    | Directory(mode: Mode)
    | RegularFile(mode: Mode, content: string)
    | SymbolicLink(target: string)

  type Fs = map<Path, Node>

  /** The `syscall` errors the calls below can report. */
  datatype FsError =
    | NotFound(path: Path)
    | NotADirectory(path: Path)
    | IsADirectory(path: Path)
    | AlreadyExists(path: Path)
    | NotEmpty(path: Path)
    | Busy(path: Path)

  predicate Exists(fs: Fs, p: Path) {
    p == [] || p in fs
  }

  predicate IsDir(fs: Fs, p: Path) {
    p == [] || (p in fs && fs[p].Directory?)
  }

  /** Some path in `fs` sits directly inside `p`. */
  predicate HasChild(fs: Fs, p: Path) {
    exists q :: q in fs && |q| > 0 && Dir(q) == p
  }

  /**
   * Nothing is taken away and no directory changes: every path of `fs`
   * is still in `fs'`, and every directory of `fs` is still the same directory.
   */
  predicate Grows(fs: Fs, fs': Fs) {
    && fs.Keys <= fs'.Keys
    && forall p :: p in fs && fs[p].Directory? ==> fs'[p] == fs[p]
  }

  /** `os.Mkdir(p, 0700)`: one directory, whose parent must exist. */
  function Mkdir(fs: Fs, p: Path): (r: Result<Fs, FsError>)
    ensures r.Ok? <==> !Exists(fs, p) && IsDir(fs, Dir(p))
    ensures r.Ok? ==> r.value == fs[p := Directory(DirMode)]
    ensures r.Err? && Exists(fs, p) ==> r.error == AlreadyExists(p)
  {
    if Exists(fs, p) then Err(AlreadyExists(p))
    else if !IsDir(fs, Dir(p)) then Err(NotFound(Dir(p)))
    else Ok(fs[p := Directory(DirMode)])
  }

  /**
   * `os.MkdirAll(p, 0700)`: succeeds at once on an existing directory, fails
   * on a non-directory, and otherwise creates the missing ancestors first.
   */
  function MkdirAll(fs: Fs, p: Path): (r: Result<Fs, FsError>)
    ensures r.Ok? ==> IsDir(r.value, p) && Grows(fs, r.value)
    ensures r.Ok? ==> forall q :: q in r.value && q !in fs ==> q <= p && r.value[q] == Directory(DirMode)
    ensures IsDir(fs, p) ==> r == Ok(fs)
    decreases |p|
  {
    if IsDir(fs, p) then Ok(fs)
    else if p in fs then Err(NotADirectory(p))
    else
      match MkdirAll(fs, Dir(p))
      case Err(e) => Err(e)
      case Ok(fs') =>
        assert !(p <= Dir(p));
        Ok(fs'[p := Directory(DirMode)])
  }

  /**
   * `os.WriteFile(p, content, mode)`: creates the file with `mode`, or
   * truncates an existing regular file, which keeps its own mode.
   */
  function WriteFile(fs: Fs, p: Path, content: string, mode: Mode): (r: Result<Fs, FsError>)
    ensures r.Ok? ==> p in r.value && r.value[p].RegularFile? && r.value[p].content == content
    ensures r.Ok? && (p !in fs || !fs[p].RegularFile?) ==> r.value[p].mode == mode
    ensures r.Ok? && p in fs && fs[p].RegularFile? ==> r.value[p].mode == fs[p].mode
    ensures r.Ok? ==> r.value == fs[p := r.value[p]]
    ensures IsDir(fs, p) ==> r == Err(IsADirectory(p))
  {
    if IsDir(fs, p) then Err(IsADirectory(p))
    else if p in fs && fs[p].RegularFile? then Ok(fs[p := RegularFile(fs[p].mode, content)])
    else if !IsDir(fs, Dir(p)) then Err(NotFound(Dir(p)))
    else Ok(fs[p := RegularFile(mode, content)])
  }

  /** `os.Remove(p)`: unlinks a file or link, or removes an empty directory. */
  function Remove(fs: Fs, p: Path): (r: Result<Fs, FsError>)
    ensures r.Ok? <==> p in fs && p != [] && !(fs[p].Directory? && HasChild(fs, p))
    ensures r.Ok? ==> r.value == fs - {p}
    ensures !Exists(fs, p) ==> r == Err(NotFound(p))
  {
    if p == [] then Err(Busy(p))
    else if p !in fs then Err(NotFound(p))
    else if fs[p].Directory? && HasChild(fs, p) then Err(NotEmpty(p))
    else Ok(fs - {p})
  }

  /**
   * `os.Symlink(target, p)`: a new link whose text is `target`, stored
   * verbatim. Linux refuses empty link text (ENOENT) before it looks at `p`.
   */
  function Symlink(fs: Fs, target: string, p: Path): (r: Result<Fs, FsError>)
    ensures r.Ok? <==> target != "" && !Exists(fs, p) && IsDir(fs, Dir(p))
    ensures r.Ok? ==> r.value == fs[p := SymbolicLink(target)]
    ensures target == "" ==> r == Err(NotFound(p))
  {
    if target == "" then Err(NotFound(p))
    else if Exists(fs, p) then Err(AlreadyExists(p))
    else if !IsDir(fs, Dir(p)) then Err(NotFound(Dir(p)))
    else Ok(fs[p := SymbolicLink(target)])
  }

  /** Linux gives up after 40 symbolic links in one lookup (ELOOP). */
  const MaxLinkHops: nat := 40

  /**
   * Where the link text `text` stored at `p` points, as the operating
   * system reads it: absolute text from the root, relative text from the
   * directory that holds the link.
   */
  function LinkTarget(p: Path, text: string): Path {
    if IsAbs(text) then Clean(text) else Resolve(Dir(p), text)
  }

  /** What reading `p` reaches: a symbolic link is followed, to its `LinkTarget`, at most `hops` times. */
  function Deref(fs: Fs, p: Path, hops: nat): Option<Node>
    decreases hops
  {
    if p !in fs then None
    else match fs[p]
      case SymbolicLink(t) => if hops == 0 then None else Deref(fs, LinkTarget(p, t), hops - 1)
      case n => Some(n)
  }
}

=== FILE: options.dfy ===
/**
 * The option and extension pipeline of `Scaffold` (scaffolder.go:16-122):
 * options are applied in order to a default configuration, then every
 * plugin's `Extend` runs once, in registration order, before the walk.
 */
module Options {
  import opened Paths
  import opened Templates
  import opened Effects
  import R = Results

  /** What a plugin callback returns: nil, or an error. */
  datatype Status = Pass | Fail(reason: string)

  /**
   * `Config`: the context, the template functions and the exclusion
   * patterns a plugin may change, and the source and target roots
   * (unexported fields behind `Source()` and `Target()`), which the model
   * keeps as the caller gave them.
   */
  datatype Config = Config(context: Value, funcs: FuncTable, exclude: seq<string>, source: Path, target: Path)

  /**
   * `Extension`: a configuration hook and a per-entry hook, both without
   * effects on the file system.
   */
  datatype Extension = Extension(extend: Config -> R.Result<Config, string>, afterEach: Path -> Status)

  /** `ExtensionFunc`: only the configuration hook; `AfterEach` returns nil. */
  function ExtensionFunc(f: Config -> R.Result<Config, string>): (x: Extension)
    ensures forall p :: x.afterEach(p) == Pass
    ensures forall c :: x.extend(c) == f(c)
  {
    Extension(f, _ => Pass)
  }

  /** `AfterEachExtensionFunc`: only the per-entry hook; `Extend` changes nothing. */
  function AfterEachExtensionFunc(f: Path -> Status): (x: Extension)
    ensures forall c :: x.extend(c) == R.Ok(c)
    ensures forall p :: x.afterEach(p) == f(p)
  {
    Extension(c => R.Ok(c), f)
  }

  /** The four option constructors the package exports (scaffolder.go:61-99). */
  datatype Option =
    | Functions(funcs: FuncTable)
    | Extend(plugin: Extension)
    | Exclude(patterns: seq<string>)
    | AfterEach(after: Path -> Status)

  datatype ScaffoldOptions = ScaffoldOptions(config: Config, plugins: seq<Extension>)

  /** The options `Scaffold` starts from: only the "dir" stub is defined (scaffolder.go:104-113). */
  function Defaults(source: Path, target: Path, ctx: Value): ScaffoldOptions {
    ScaffoldOptions(Config(ctx, map[DirFunc := DirNotImplemented], [], source, target), [])
  }

  /** One option applied to the options built so far. */
  function ApplyOption(so: ScaffoldOptions, o: Option): ScaffoldOptions {
    match o
    case Functions(funcs) => so.(config := so.config.(funcs := so.config.funcs + funcs))
    case Extend(plugin) => so.(plugins := so.plugins + [plugin])
    case Exclude(patterns) => so.(config := so.config.(exclude := so.config.exclude + patterns))
    case AfterEach(after) => so.(plugins := so.plugins + [AfterEachExtensionFunc(after)])
  }

  /** `for _, option := range options { option(&opts) }` (scaffolder.go:114-116). */
  function ApplyOptions(so: ScaffoldOptions, opts: seq<Option>): ScaffoldOptions
    decreases |opts|
  {
    if opts == [] then so else ApplyOptions(ApplyOption(so, opts[0]), opts[1..])
  }

  // ---------------------------------------------------------------------
  // Reference definitions, read off the options from the last one backwards.

  /** The binding the last `Functions` option naming `name` gives it, if any. */
  function LastBinding(opts: seq<Option>, name: string): R.Option<Func>
    decreases |opts|
  {
    if opts == [] then R.None
    else
      var o := opts[|opts| - 1];
      if o.Functions? && name in o.funcs then R.Some(o.funcs[name])
      else LastBinding(opts[..|opts| - 1], name)
  }

  /** The plugins the options register, in registration order. */
  function PluginsOf(opts: seq<Option>): seq<Extension>
    decreases |opts|
  {
    if opts == [] then []
    else
      var o := opts[|opts| - 1];
      var mine := match o
        case Extend(plugin) => [plugin]
        case AfterEach(after) => [AfterEachExtensionFunc(after)]
        case _ => [];
      PluginsOf(opts[..|opts| - 1]) + mine
  }

  /** The exclusion patterns the options add, in order. */
  function PatternsOf(opts: seq<Option>): seq<string>
    decreases |opts|
  {
    if opts == [] then []
    else
      var o := opts[|opts| - 1];
      PatternsOf(opts[..|opts| - 1]) + (if o.Exclude? then o.patterns else [])
  }

  lemma {:induction false} ApplyOptionsSnoc(so: ScaffoldOptions, opts: seq<Option>, o: Option)
    ensures ApplyOptions(so, opts + [o]) == ApplyOption(ApplyOptions(so, opts), o)
    decreases |opts|
  {
    if opts == [] {
      assert opts + [o] == [o];
    } else {
      assert (opts + [o])[0] == opts[0];
      assert (opts + [o])[1..] == opts[1..] + [o];
      ApplyOptionsSnoc(ApplyOption(so, opts[0]), opts[1..], o);
    }
  }

  /**
   * Applying options in order: a function name is bound by the last
   * `Functions` option that names it and otherwise keeps its old binding;
   * patterns and plugins are appended in order; the context and the roots
   * are untouched.
   */
  lemma {:induction false} ApplyOptionsSpec(so: ScaffoldOptions, opts: seq<Option>)
    ensures var r := ApplyOptions(so, opts);
      && (forall name :: LastBinding(opts, name).Some? ==>
            name in r.config.funcs && r.config.funcs[name] == LastBinding(opts, name).value)
      && (forall name :: LastBinding(opts, name).None? ==>
            (name in r.config.funcs <==> name in so.config.funcs)
            && (name in so.config.funcs ==> r.config.funcs[name] == so.config.funcs[name]))
      && r.config.exclude == so.config.exclude + PatternsOf(opts)
      && r.plugins == so.plugins + PluginsOf(opts)
      && r.config.context == so.config.context
      && r.config.source == so.config.source
      && r.config.target == so.config.target
    decreases |opts|
  {
    if opts != [] {
      var init := opts[..|opts| - 1];
      var o := opts[|opts| - 1];
      assert opts == init + [o];
      ApplyOptionsSpec(so, init);
      ApplyOptionsSnoc(so, init, o);
    }
  }

  // ---------------------------------------------------------------------
  // Extension phase (scaffolder.go:118-122)

  /** The outcome of the `Extend` calls: the configuration, the trace, and the failing plugin. */
  datatype Extended = Extended(config: Config, log: seq<Event>, failed: R.Option<(nat, string)>)

  /** `ExtendCalled(from)`, ..., `ExtendCalled(to - 1)`. */
  function ExtendCalls(from: nat, to: nat): (calls: seq<Event>)
    requires from <= to
    ensures |calls| == to - from
    ensures forall i :: 0 <= i < |calls| ==> calls[i] == ExtendCalled(from + i)
  {
    seq(to - from, i requires 0 <= i => ExtendCalled(from + i))
  }

  /** One plugin's `Extend` on `c`; the model keeps the roots of `c`, whatever the plugin returns. */
  function ExtendOne(plugin: Extension, c: Config): R.Result<Config, string> {
    match plugin.extend(c)
    case Err(reason) => R.Err(reason)
    case Ok(c') => R.Ok(c'.(source := c.source, target := c.target))
  }

  /**
   * Reference definition, read from the last plugin backwards: the
   * configuration after the plugins `i..n` have each extended the one the
   * previous plugin left, or `None` when one of them failed.
   */
  function ExtendedBy(plugins: seq<Extension>, config: Config, i: nat, n: nat): R.Option<Config>
    requires i <= n <= |plugins|
    decreases n
  {
    if n == i then R.Some(config)
    else
      match ExtendedBy(plugins, config, i, n - 1)
      case None => R.None
      case Some(c) =>
        match ExtendOne(plugins[n - 1], c)
        case Err(_) => R.None
        case Ok(c') => R.Some(c')
  }

  /** The first plugin's `Extend`, then the fold of the plugins after it on its result. */
  function FirstThenFold(plugins: seq<Extension>, config: Config, i: nat, n: nat): R.Option<Config>
    requires i < n <= |plugins|
  {
    match ExtendOne(plugins[i], config)
    case Err(_) => R.None
    case Ok(c) => ExtendedBy(plugins, c, i + 1, n)
  }

  /** Folding from `i` is the first plugin's `Extend`, then folding from `i + 1` on its result. */
  lemma {:induction false} ExtendedByFirst(plugins: seq<Extension>, config: Config, i: nat, n: nat)
    requires i < n <= |plugins|
    ensures ExtendedBy(plugins, config, i, n) == FirstThenFold(plugins, config, i, n)
    decreases n
  {
    if n > i + 1 {
      ExtendedByFirst(plugins, config, i, n - 1);
    }
  }

  /**
   * The plugins from index `i` on, each given the configuration the
   * previous one left; the first error stops the loop.  The model keeps
   * the source and target roots.  On success the configuration is
   * the fold of every plugin's `Extend`; on failure the failing plugin's
   * `Extend`, given the fold of the plugins before it, returned the reason
   * reported.
   */
  function ExtendAll(plugins: seq<Extension>, config: Config, log: seq<Event>, i: nat): (r: Extended)
    requires i <= |plugins|
    ensures r.failed.None? ==> r.log == log + ExtendCalls(i, |plugins|)
    ensures r.failed.None? ==> ExtendedBy(plugins, config, i, |plugins|) == R.Some(r.config)
    ensures r.failed.Some? ==>
      var j := r.failed.value.0;
      && i <= j < |plugins| && r.log == log + ExtendCalls(i, j + 1)
      && ExtendedBy(plugins, config, i, j) == R.Some(r.config)
      && plugins[j].extend(r.config) == R.Err(r.failed.value.1)
    ensures r.failed.None? <==> ExtendedBy(plugins, config, i, |plugins|).Some?
    ensures r.config.source == config.source && r.config.target == config.target
    decreases |plugins| - i
  {
    if i == |plugins| then Extended(config, log, R.None)
    else
      var log' := log + [ExtendCalled(i)];
      match plugins[i].extend(config)
      case Err(reason) =>
        ExtendedByFirst(plugins, config, i, |plugins|);
        assert ExtendCalls(i, i + 1) == [ExtendCalled(i)];
        Extended(config, log', R.Some((i, reason)))
      case Ok(c) =>
        var c' := c.(source := config.source, target := config.target);
        var r := ExtendAll(plugins, c', log', i + 1);
        ExtendStep(plugins, config, log, i, c', r);
        r
  }

  /** What `ExtendAll` from `i` promises of its result `r`, roots apart. */
  ghost predicate ExtendedFrom(plugins: seq<Extension>, config: Config, log: seq<Event>, i: nat, r: Extended)
    requires i <= |plugins|
  {
    && (r.failed.None? ==> r.log == log + ExtendCalls(i, |plugins|))
    && (r.failed.None? ==> ExtendedBy(plugins, config, i, |plugins|) == R.Some(r.config))
    && (r.failed.Some? ==>
          var j := r.failed.value.0;
          && i <= j < |plugins| && r.log == log + ExtendCalls(i, j + 1)
          && ExtendedBy(plugins, config, i, j) == R.Some(r.config)
          && plugins[j].extend(r.config) == R.Err(r.failed.value.1))
    && (r.failed.None? <==> ExtendedBy(plugins, config, i, |plugins|).Some?)
  }

  /** A successful call of plugin `i`, then the loop from `i + 1`, is the loop from `i`. */
  lemma ExtendStep(plugins: seq<Extension>, config: Config, log: seq<Event>, i: nat, c: Config, r: Extended)
    requires i < |plugins| && ExtendOne(plugins[i], config) == R.Ok(c)
    requires ExtendedFrom(plugins, c, log + [ExtendCalled(i)], i + 1, r)
    ensures ExtendedFrom(plugins, config, log, i, r)
  {
    ExtendedByFirst(plugins, config, i, |plugins|);
    if r.failed.Some? {
      var j := r.failed.value.0;
      ExtendedByFirst(plugins, config, i, j);
      ExtendCallsCons(i, j + 1);
    } else {
      ExtendCallsCons(i, |plugins|);
    }
  }

  /** The calls from `i` are the call of `i`, then the calls from `i + 1`. */
  lemma ExtendCallsCons(i: nat, n: nat)
    requires i < n
    ensures [ExtendCalled(i)] + ExtendCalls(i + 1, n) == ExtendCalls(i, n)
  {
    assert forall k :: 0 <= k < n - i ==> ([ExtendCalled(i)] + ExtendCalls(i + 1, n))[k] == ExtendCalls(i, n)[k];
  }

  /** Plugins whose `Extend` never fails are each called once, in order. */
  lemma ExtendAllSucceeds(plugins: seq<Extension>, config: Config)
    requires forall i, c :: 0 <= i < |plugins| ==> plugins[i].extend(c).Ok?
    ensures ExtendAll(plugins, config, [], 0).failed.None?
    ensures ExtendAll(plugins, config, [], 0).log == ExtendCalls(0, |plugins|)
  {
    ExtendAllNoFailure(plugins, config, [], 0);
  }

  lemma {:induction false} ExtendAllNoFailure(plugins: seq<Extension>, config: Config, log: seq<Event>, i: nat)
    requires i <= |plugins|
    requires forall j, c :: i <= j < |plugins| ==> plugins[j].extend(c).Ok?
    ensures ExtendAll(plugins, config, log, i).failed.None?
    decreases |plugins| - i
  {
    if i < |plugins| {
      var c := plugins[i].extend(config).value;
      ExtendAllNoFailure(plugins, c.(source := config.source, target := config.target), log + [ExtendCalled(i)], i + 1);
    }
  }
}

=== FILE: paths.dfy ===
/**
 * Slash-separated paths as the Go `path/filepath` package treats them on a
 * Unix system.  A cleaned absolute path is the list of its segments:
 * "/a/b" is ["a", "b"] and "/" is [].  Path TEXT (a rendered file name, a
 * symlink target) stays a string and is turned into a path by `Resolve`,
 * which is `filepath.Clean(filepath.Join(base, text))`.
 */
module Paths {

  type Path = seq<string>

  /** The literal suffix that marks a template file (scaffolder.go:180). */
  const TemplateSuffix: string := ".tmpl"

  /** A segment a cleaned path can hold: not empty, not "." or "..", no separator. */
  predicate IsSegment(s: string) {
    s != "" && s != "." && s != ".." && '/' !in s
  }

  /** A path whose every segment survived `filepath.Clean`. */
  predicate IsClean(p: Path) {
    forall i :: 0 <= i < |p| ==> IsSegment(p[i])
  }

  /** `filepath.IsAbs` on Unix. */
  predicate IsAbs(text: string) {
    |text| > 0 && text[0] == '/'
  }

  /** `filepath.Dir`: the path without its last segment; the root is its own parent. */
  function Dir(p: Path): (d: Path)
    ensures |p| > 0 ==> d + [p[|p| - 1]] == p
    ensures |p| == 0 ==> d == []
  {
    if |p| == 0 then [] else p[..|p| - 1]
  }

  /** The text split at every '/', keeping empty pieces (`strings.Split(text, "/")`). */
  function Split(s: string): (parts: seq<string>)
    ensures |parts| >= 1
    ensures forall i :: 0 <= i < |parts| ==> '/' !in parts[i]
  {
    if s == [] then [""]
    else
      var rest := Split(s[1..]);
      if s[0] == '/' then [""] + rest
      else [[s[0]] + rest[0]] + rest[1..]
  }

  /** The pieces joined with '/' (`strings.Join(parts, "/")`). */
  function JoinSegments(parts: seq<string>): string
    requires |parts| >= 1
  {
    if |parts| == 1 then parts[0] else parts[0] + "/" + JoinSegments(parts[1..])
  }

  /** One element of the lexical cleaning `filepath.Clean` performs. */
  function Step(p: Path, seg: string): Path {
    if seg == "" || seg == "." then p
    else if seg == ".." then Dir(p)
    else p + [seg]
  }

  /** Cleaning the pieces `segs` onto the cleaned path `p`, left to right. */
  function Walk(p: Path, segs: seq<string>): (r: Path)
    ensures IsClean(p) && (forall i :: 0 <= i < |segs| ==> '/' !in segs[i]) ==> IsClean(r)
    decreases |segs|
  {
    if segs == [] then p else Walk(Step(p, segs[0]), segs[1..])
  }

  /** `filepath.Clean(filepath.Join(base, text))` for an absolute cleaned `base`. */
  function Resolve(base: Path, text: string): (r: Path)
    ensures IsClean(base) ==> IsClean(r)
  {
    Walk(base, Split(text))
  }

  /** `filepath.Clean(text)` for an absolute `text`. */
  function Clean(text: string): (r: Path)
    ensures IsClean(r)
  {
    Resolve([], text)
  }

  /** The number of leading segments `a` and `b` share. */
  function CommonPrefix(a: Path, b: Path): (k: nat)
    ensures k <= |a| && k <= |b|
    ensures a[..k] == b[..k]
    ensures k < |a| && k < |b| ==> a[k] != b[k]
  {
    if |a| == 0 || |b| == 0 || a[0] != b[0] then 0
    else
      var k := CommonPrefix(a[1..], b[1..]);
      assert a[1..][..k] == a[1..k + 1] && b[1..][..k] == b[1..k + 1];
      assert a[..k + 1] == [a[0]] + a[1..k + 1];
      assert b[..k + 1] == [b[0]] + b[1..k + 1];
      k + 1
  }

  /** `n` copies of "..". */
  function Ups(n: nat): (ups: seq<string>)
    ensures |ups| == n
    ensures forall i :: 0 <= i < n ==> ups[i] == ".."
  {
    seq(n, _ => "..")
  }

  /**
   * `filepath.Rel(base, target)` for two absolute cleaned paths: climb out of
   * `base` to the longest common prefix, then descend into `target`.
   */
  function Rel(base: Path, target: Path): string {
    var k := CommonPrefix(base, target);
    var parts := Ups(|base| - k) + target[k..];
    if parts == [] then "." else JoinSegments(parts)
  }

  /** True iff `s` ends in the template suffix. */
  predicate HasTemplateSuffix(s: string) {
    |s| >= |TemplateSuffix| && s[|s| - |TemplateSuffix|..] == TemplateSuffix
  }

  /** The name without its template suffix. */
  function Stem(name: string): string
    requires HasTemplateSuffix(name)
  {
    name[..|name| - |TemplateSuffix|]
  }

  /**
   * `strings.TrimSuffix(path, ".tmpl")` on the text of a cleaned path, as
   * the OS then reads that text.  The suffix holds no separator, so it can
   * only sit at the end of the last segment.  The stem left behind is read
   * like any other name in the parent: "dir/" and "dir/." name `dir`, and
   * "dir/.." names its parent.
   */
  function TrimTemplateSuffix(p: Path): Path {
    if |p| > 0 && HasTemplateSuffix(p[|p| - 1]) then Resolve(Dir(p), Stem(p[|p| - 1]))
    else p
  }

  // ---------------------------------------------------------------------
  // Lemmas

  lemma {:induction false} SplitPlainPrefix(x: string, y: string)
    requires '/' !in x
    ensures Split(x + y) == [x + Split(y)[0]] + Split(y)[1..]
    decreases |x|
  {
    if x == [] {
      assert x + y == y;
      assert x + Split(y)[0] == Split(y)[0];
      assert Split(y) == [Split(y)[0]] + Split(y)[1..];
    } else {
      assert (x + y)[1..] == x[1..] + y;
      assert '/' !in x[1..] by {
        forall i | 0 <= i < |x[1..]| ensures x[1..][i] != '/' {
          assert x[1..][i] == x[i + 1];
        }
      }
      SplitPlainPrefix(x[1..], y);
      var s := x + y;
      assert s[0] == x[0] && x[0] != '/';
      assert s[1..] == x[1..] + y;
      var rest := Split(s[1..]);
      assert rest == [x[1..] + Split(y)[0]] + Split(y)[1..];
      assert Split(s) == [[s[0]] + rest[0]] + rest[1..];
      assert [x[0]] + (x[1..] + Split(y)[0]) == x + Split(y)[0];
    }
  }

  /** Splitting a name that holds no separator gives back the name. */
  lemma SplitPlain(x: string)
    requires '/' !in x
    ensures Split(x) == [x]
  {
    SplitPlainPrefix(x, "");
    assert x + "" == x;
  }

  /** Joining separator-free pieces and splitting again is the identity. */
  lemma {:induction false} SplitJoin(parts: seq<string>)
    requires |parts| >= 1
    requires forall i :: 0 <= i < |parts| ==> '/' !in parts[i]
    ensures Split(JoinSegments(parts)) == parts
    decreases |parts|
  {
    if |parts| == 1 {
      SplitPlain(parts[0]);
    } else {
      var rest := parts[1..];
      SplitJoin(rest);
      var y := "/" + JoinSegments(rest);
      assert parts[0] + "/" + JoinSegments(rest) == parts[0] + y;
      SplitPlainPrefix(parts[0], y);
      assert y[0] == '/' && y[1..] == JoinSegments(rest);
      assert Split(y) == [""] + Split(y[1..]);
      assert Split(y) == [""] + rest;
      assert parts[0] + "" == parts[0];
      assert parts == [parts[0]] + rest;
    }
  }

  lemma {:induction false} WalkAppend(p: Path, a: seq<string>, b: seq<string>)
    ensures Walk(p, a + b) == Walk(Walk(p, a), b)
    decreases |a|
  {
    if a == [] {
      assert a + b == b;
    } else {
      assert (a + b)[0] == a[0];
      assert (a + b)[1..] == a[1..] + b;
      WalkAppend(Step(p, a[0]), a[1..], b);
    }
  }

  /** Cleaning "..", n times, climbs n levels. */
  lemma {:induction false} WalkUps(p: Path, n: nat)
    requires n <= |p|
    ensures Walk(p, Ups(n)) == p[..|p| - n]
    decreases n
  {
    if n > 0 {
      assert Ups(n)[1..] == Ups(n - 1);
      WalkUps(Dir(p), n - 1);
      assert Dir(p)[..|Dir(p)| - (n - 1)] == p[..|p| - n];
    } else {
      assert p[..|p|] == p;
    }
  }

  /** Cleaning segments that are already clean just appends them. */
  lemma {:induction false} WalkClean(p: Path, q: Path)
    requires IsClean(q)
    ensures Walk(p, q) == p + q
    decreases |q|
  {
    if q == [] {
      assert p + q == p;
    } else {
      assert IsClean(q[1..]) by {
        forall i | 0 <= i < |q[1..]| ensures IsSegment(q[1..][i]) {
          assert q[1..][i] == q[i + 1];
        }
      }
      assert IsSegment(q[0]);
      WalkClean(p + [q[0]], q[1..]);
      assert p + [q[0]] + q[1..] == p + q;
    }
  }

  /** A plain segment joined onto `base` becomes its last segment. */
  lemma ResolveSegment(base: Path, name: string)
    requires IsSegment(name)
    ensures Resolve(base, name) == base + [name]
  {
    SplitPlain(name);
    assert Step(base, name) == base + [name];
    assert Walk(base, [name]) == Walk(base + [name], []);
  }

  /**
   * `filepath.Rel` round trip: the relative text, joined back onto `base`
   * and cleaned, names `target` again, and it is not absolute.
   */
  lemma RelResolves(base: Path, target: Path)
    requires IsClean(target)
    ensures Resolve(base, Rel(base, target)) == target
    ensures !IsAbs(Rel(base, target))
  {
    var k := CommonPrefix(base, target);
    var parts := Ups(|base| - k) + target[k..];
    if parts == [] {
      assert |base| == k && |target| == k;
      assert target == target[..k];
      assert base == base[..k];
      assert Rel(base, target) == ".";
      SplitPlain(".");
      assert Walk(base, ["."]) == Walk(Step(base, "."), []) == base;
    } else {
      RelPartsResolve(base, target, k, parts);
    }
  }

  lemma RelPartsResolve(base: Path, target: Path, k: nat, parts: seq<string>)
    requires IsClean(target)
    requires k <= |base| && k <= |target| && base[..k] == target[..k]
    requires parts == Ups(|base| - k) + target[k..] && parts != []
    ensures Resolve(base, JoinSegments(parts)) == target
    ensures !IsAbs(JoinSegments(parts))
  {
    var tail := target[k..];
    assert IsClean(tail) by {
      forall i | 0 <= i < |tail| ensures IsSegment(tail[i]) {
        assert tail[i] == target[k + i];
      }
    }
    assert forall i :: 0 <= i < |parts| ==> '/' !in parts[i] && parts[i] != "" by {
      forall i | 0 <= i < |parts| ensures '/' !in parts[i] && parts[i] != "" {
        if i >= |base| - k {
          assert parts[i] == tail[i - (|base| - k)];
        }
      }
    }
    SplitJoin(parts);
    WalkAppend(base, Ups(|base| - k), tail);
    WalkUps(base, |base| - k);
    WalkClean(base[..k], tail);
    assert base[..k] + tail == target;
    JoinStartsWithFirst(parts);
  }

  lemma {:induction false} JoinStartsWithFirst(parts: seq<string>)
    requires |parts| >= 1 && parts[0] != ""
    ensures |JoinSegments(parts)| > 0 && JoinSegments(parts)[0] == parts[0][0]
  {
  }

  /** Exactly one template suffix is removed: "x.tmpl.tmpl" keeps one ".tmpl". */
  lemma TrimRemovesOneSuffix(dir: Path, stem: string)
    requires IsSegment(stem)
    ensures TrimTemplateSuffix(dir + [stem + TemplateSuffix]) == dir + [stem]
  {
    var p := dir + [stem + TemplateSuffix];
    var last := p[|p| - 1];
    assert last == stem + TemplateSuffix;
    assert last[|last| - |TemplateSuffix|..] == TemplateSuffix;
    assert Stem(last) == stem;
    assert Dir(p) == dir;
    ResolveSegment(dir, stem);
  }

  /** The stems "", "." and ".." are read as the directory itself and as its parent. */
  lemma ResolveDots(dir: Path)
    ensures Resolve(dir, "") == dir
    ensures Resolve(dir, ".") == dir
    ensures Resolve(dir, "..") == Dir(dir)
  {
    SplitPlain(".");
    SplitPlain("..");
    assert Walk(dir, ["."]) == Walk(Step(dir, "."), []);
    assert Walk(dir, [".."]) == Walk(Step(dir, ".."), []);
    assert Walk(dir, [""]) == Walk(Step(dir, ""), []);
  }

  /**
   * Where a rendered plain name lands in `dir`: at `dir/name` without a
   * suffix; at `dir/stem` for "stem.tmpl"; and for ".tmpl", "..tmpl" and
   * "...tmpl", whose stems are "", "." and "..", at `dir` itself or at its
   * parent, as the OS reads the trimmed text.
   */
  lemma JoinTrimmed(dir: Path, name: string)
    requires IsSegment(name)
    ensures !HasTemplateSuffix(name) ==> TrimTemplateSuffix(Resolve(dir, name)) == dir + [name]
    ensures HasTemplateSuffix(name) && IsSegment(Stem(name)) ==>
      TrimTemplateSuffix(Resolve(dir, name)) == dir + [Stem(name)]
    ensures HasTemplateSuffix(name) && (Stem(name) == "" || Stem(name) == ".") ==>
      TrimTemplateSuffix(Resolve(dir, name)) == dir
    ensures HasTemplateSuffix(name) && Stem(name) == ".." ==>
      TrimTemplateSuffix(Resolve(dir, name)) == Dir(dir)
  {
    ResolveSegment(dir, name);
    if HasTemplateSuffix(name) {
      var stem := Stem(name);
      assert name == stem + TemplateSuffix;
      var p := dir + [name];
      assert Dir(p) == dir && p[|p| - 1] == name;
      ResolveDots(dir);
      if IsSegment(stem) {
        TrimRemovesOneSuffix(dir, stem);
      }
    }
  }
}

=== FILE: results.dfy ===
/** Failure-compatible wrappers shared by every module of the model. */
module Results {

  /** An optional value, used where the Go code returns a nil-able error. */
  datatype Option<+T> = None | Some(value: T)

  /** A value or an error, used where the Go code returns `(T, error)`. */
  datatype Result<+T, +E> = Ok(value: T) | Err(error: E) {

    predicate IsFailure() {
      Err?
    }

    function PropagateFailure<U>(): Result<U, E>
      requires Err?
    {
      Err(error)
    }

    function Extract(): T
      requires Ok?
    {
      value
    }
  }
}

/** Listing the elements of a finite set in some order, as Go's map iteration does. */
module Enumeration {

  predicate Distinct<T(==)>(xs: seq<T>) {
    forall i, j :: 0 <= i < j < |xs| ==> xs[i] != xs[j]
  }

  /**
   * Some listing of `s`: every element exactly once, in an order the model
   * leaves unspecified (Go randomises map iteration order).
   */
  ghost function Enumerate<T(!new)>(s: set<T>): (xs: seq<T>)
    ensures |xs| == |s|
    ensures forall x :: x in xs <==> x in s
    ensures Distinct(xs)
    decreases |s|
  {
    if s == {} then []
    else
      var x :| x in s;
      var rest := Enumerate(s - {x});
      assert forall i :: 0 <= i < |rest| ==> rest[i] != x;
      [x] + rest
  }
}

=== FILE: scaffolder.dfy ===
/**
 * The generation engine (scaffolder.go:101-259): the walk over the
 * template tree that decides, entry by entry, whether and where the entry
 * is materialized, and materializes it according to its kind; and
 * `Scaffold`, which applies the options, runs the plugins, walks, and
 * finally creates the deferred symbolic links.
 *
 * The walk is ghost because Go's map iteration order (the fan-out loop,
 * the deferred-link loop) is modelled by `Enumerate`, an arbitrary listing.
 */
module Scaffolder {
  import opened Paths
  import opened Templates
  import opened FileSystem
  import ST = SourceTree
  import opened Effects
  import opened Options
  import opened Symlinks
  import opened Enumeration
  import R = Results

  /** What the walk threads through: the destination, the deferred links, and the trace. */
  datatype Run = Run(fs: Fs, pending: Pending, log: seq<Event>)

  /** Where a part of the walk got to, and the error that stopped it, if any. */
  datatype Progress = Progress(run: Run, err: R.Option<Error>)

  /** What the walk reads from the options once the plugins have run (the `state` struct). */
  datatype Env = Env(engine: Engine, plugins: seq<Extension>, funcs: FuncTable, exclude: seq<string>, sourceRoot: Path)

  /** Nothing is lost: the file system only grows, links are only added, the trace only extends. */
  ghost predicate Follows(run: Run, run': Run) {
    && Grows(run.fs, run'.fs)
    && run.pending.Keys <= run'.pending.Keys
    && run.log <= run'.log
  }

  // ---------------------------------------------------------------------
  // Naming an entry (scaffolder.go:156-180)

  /**
   * The functions an entry's templates see: the configured ones, with
   * "dir" rebound to this entry's recorder whatever was configured.
   */
  function EntryFuncs(env: Env): (funcs: FuncTable)
    ensures DirFunc in funcs && funcs[DirFunc] == DirRecorder
    ensures forall n :: n != DirFunc ==> (n in funcs <==> n in env.funcs)
    ensures forall n :: n != DirFunc && n in env.funcs ==> funcs[n] == env.funcs[n]
  {
    env.funcs[DirFunc := DirRecorder]
  }

  /** No later call of `calls` names the same directory as call `i`. */
  predicate LastCallFor(calls: seq<DirCall>, i: int)
    requires 0 <= i < |calls|
  {
    forall j :: i < j < |calls| ==> calls[j].name != calls[i].name
  }

  /** The `subDirs` map the recorder fills, call by call (scaffolder.go:166-170). */
  function Recorded(calls: seq<DirCall>): map<string, Value>
    decreases |calls|
  {
    if calls == [] then map[]
    else
      var last := calls[|calls| - 1];
      Recorded(calls[..|calls| - 1])[last.name := last.ctx]
  }

  /** The recorded names are exactly the names `dir` was called with. */
  lemma {:induction false} RecordedKeys(calls: seq<DirCall>)
    ensures forall n :: n in Recorded(calls) <==> exists i :: 0 <= i < |calls| && calls[i].name == n
    decreases |calls|
  {
    if calls != [] {
      var init := calls[..|calls| - 1];
      RecordedKeys(init);
      forall n ensures n in Recorded(calls) <==> exists i :: 0 <= i < |calls| && calls[i].name == n {
        if n in Recorded(init) {
          var i :| 0 <= i < |init| && init[i].name == n;
          assert calls[i] == init[i];
        }
        if exists i :: 0 <= i < |calls| && calls[i].name == n {
          var i :| 0 <= i < |calls| && calls[i].name == n;
          if i < |init| {
            assert init[i] == calls[i];
          }
        }
      }
    }
  }

  /** A repeated name keeps the context of its last call. */
  lemma {:induction false} RecordedLastWins(calls: seq<DirCall>, i: int)
    requires 0 <= i < |calls| && LastCallFor(calls, i)
    ensures calls[i].name in Recorded(calls) && Recorded(calls)[calls[i].name] == calls[i].ctx
    decreases |calls|
  {
    var init := calls[..|calls| - 1];
    if i < |calls| - 1 {
      assert init[i] == calls[i];
      assert LastCallFor(init, i) by {
        forall j | i < j < |init| ensures init[j].name != init[i].name {
          assert init[j] == calls[j];
        }
      }
      RecordedLastWins(init, i);
    }
  }

  /**
   * The `subDirs` map: one key per name `dir` was called with, holding the
   * context of the last call with that name.
   */
  lemma RecordedSpec(calls: seq<DirCall>)
    ensures forall n :: n in Recorded(calls) <==> exists i :: 0 <= i < |calls| && calls[i].name == n
    ensures forall i :: 0 <= i < |calls| && LastCallFor(calls, i) ==>
      calls[i].name in Recorded(calls) && Recorded(calls)[calls[i].name] == calls[i].ctx
  {
    RecordedKeys(calls);
    forall i | 0 <= i < |calls| && LastCallFor(calls, i)
      ensures calls[i].name in Recorded(calls) && Recorded(calls)[calls[i].name] == calls[i].ctx
    {
      RecordedLastWins(calls, i);
    }
  }

  /** What `scaffold` does with one entry before it looks at the entry's kind. */
  datatype Decision =
    | Excluded
    | Unnamed
    | Failed(err: Error)
    | Single(dst: Path)
    | FanOut(dirs: map<string, Value>)

  /**
   * The exclusion test on the source-relative path, then the entry's own
   * name rendered with the recorder bound to "dir": an empty name drops the
   * entry, no `dir` call gives one destination with one ".tmpl" trimmed,
   * and `dir` calls give one destination per recorded name.
   */
  function Decide(env: Env, srcPath: Path, name: string, dstDir: Path, ctx: Value): (d: Decision)
    ensures d == Excluded <==> MatchExcludes(env.engine, env.exclude, Rel(env.sourceRoot, srcPath)) == R.Ok(true)
    ensures MatchExcludes(env.engine, env.exclude, Rel(env.sourceRoot, srcPath)).Err? <==>
      d.Failed? && d.err.InvalidExclude?
    ensures d.Failed? && d.err.InvalidExclude? ==>
      d.err.pattern in env.exclude && !env.engine.validPattern(d.err.pattern)
    ensures d.Single? || d.FanOut? || d == Unnamed ==>
      env.engine.render(name, ctx, EntryFuncs(env)).Rendered?
    ensures d == Unnamed <==>
      MatchExcludes(env.engine, env.exclude, Rel(env.sourceRoot, srcPath)) == R.Ok(false)
      && env.engine.render(name, ctx, EntryFuncs(env)).Rendered?
      && env.engine.render(name, ctx, EntryFuncs(env)).text == ""
    ensures d == Failed(NameTemplateFailed(srcPath)) <==>
      MatchExcludes(env.engine, env.exclude, Rel(env.sourceRoot, srcPath)) == R.Ok(false)
      && env.engine.render(name, ctx, EntryFuncs(env)).RenderFailed?
    ensures d.Single? ==>
      var r := env.engine.render(name, ctx, EntryFuncs(env));
      r.Rendered? && r.text != "" && r.dirCalls == [] && d.dst == TrimTemplateSuffix(Resolve(dstDir, r.text))
    ensures d.FanOut? ==>
      var r := env.engine.render(name, ctx, EntryFuncs(env));
      r.Rendered? && r.text != "" && r.dirCalls != [] && d.dirs == Recorded(r.dirCalls)
  {
    match MatchExcludes(env.engine, env.exclude, Rel(env.sourceRoot, srcPath))
    case Err(pattern) => Failed(InvalidExclude(pattern))
    case Ok(excluded) =>
      if excluded then Excluded
      else
        match env.engine.render(name, ctx, EntryFuncs(env))
        case RenderFailed => Failed(NameTemplateFailed(srcPath))
        case Rendered(text, calls) =>
          if text == "" then Unnamed
          else if calls == [] then Single(TrimTemplateSuffix(Resolve(dstDir, text)))
          else FanOut(Recorded(calls))
  }

  // ---------------------------------------------------------------------
  // Plugins after each entry (scaffolder.go:229-233, 249-253)

  /** `AfterEachCalled(from, path)`, ..., `AfterEachCalled(to - 1, path)`. */
  function AfterEachCalls(path: Path, from: nat, to: nat): (calls: seq<Event>)
    requires from <= to
    ensures |calls| == to - from
    ensures forall k :: 0 <= k < |calls| ==> calls[k] == AfterEachCalled(from + k, path)
  {
    seq(to - from, k requires 0 <= k => AfterEachCalled(from + k, path))
  }

  /** The trace of the `AfterEach` calls, and the plugin that failed with its reason, if any. */
  datatype Hooked = Hooked(log: seq<Event>, failed: R.Option<(nat, string)>)

  /** Every plugin's `AfterEach(path)` from index `i` on, in order, until one fails. */
  function AfterEachAll(plugins: seq<Extension>, path: Path, log: seq<Event>, i: nat): (r: Hooked)
    requires i <= |plugins|
    ensures r.failed.None? ==>
      (r.log == log + AfterEachCalls(path, i, |plugins|)
       && forall k :: i <= k < |plugins| ==> plugins[k].afterEach(path) == Pass)
    ensures r.failed.Some? ==>
      var j := r.failed.value.0;
      && i <= j < |plugins|
      && r.log == log + AfterEachCalls(path, i, j + 1)
      && plugins[j].afterEach(path) == Fail(r.failed.value.1)
      && forall k :: i <= k < j ==> plugins[k].afterEach(path) == Pass
    decreases |plugins| - i
  {
    if i == |plugins| then Hooked(log, R.None)
    else
      var log' := log + [AfterEachCalled(i, path)];
      match plugins[i].afterEach(path)
      case Fail(reason) =>
        assert AfterEachCalls(path, i, i + 1) == [AfterEachCalled(i, path)];
        Hooked(log', R.Some((i, reason)))
      case Pass =>
        var r := AfterEachAll(plugins, path, log', i + 1);
        assert [AfterEachCalled(i, path)] + AfterEachCalls(path, i + 1, |plugins|) == AfterEachCalls(path, i, |plugins|);
        assert r.failed.Some? ==>
          ([AfterEachCalled(i, path)] + AfterEachCalls(path, i + 1, r.failed.value.0 + 1)
           == AfterEachCalls(path, i, r.failed.value.0 + 1));
        r
  }

  /**
   * The plugins run on `path`, with their failure turned into the run's
   * error. A plugin is a function from the path to a status, so it has no
   * effect on the file system here; in Go it may, for instance, chmod.
   */
  function AfterEachStep(env: Env, path: Path, run: Run): (p: Progress)
    ensures p.run.fs == run.fs && p.run.pending == run.pending
    ensures p.err.None? <==> forall k :: 0 <= k < |env.plugins| ==> env.plugins[k].afterEach(path) == Pass
    ensures p.err.None? ==> p.run.log == run.log + AfterEachCalls(path, 0, |env.plugins|)
    ensures p.err.Some? ==> p.err.value.AfterEachFailed?
    ensures p.err.Some? && p.err.value.AfterEachFailed? ==>
      var j := p.err.value.plugin;
      && p.err.value.path == path && j < |env.plugins|
      && env.plugins[j].afterEach(path) == Fail(p.err.value.reason)
      && (forall k :: 0 <= k < j ==> env.plugins[k].afterEach(path) == Pass)
      && p.run.log == run.log + AfterEachCalls(path, 0, j + 1)
  {
    var h := AfterEachAll(env.plugins, path, run.log, 0);
    match h.failed
    case None => Progress(run.(log := h.log), R.None)
    case Some((j, reason)) => Progress(run.(log := h.log), R.Some(AfterEachFailed(j, path, reason)))
  }

  // ---------------------------------------------------------------------
  // The walk (scaffolder.go:146-259)

  /** The text a symlink's rendered target is stored as: made relative to the link's directory when absolute. */
  function StoredTarget(dst: Path, rendered: string): (stored: string)
    ensures !IsAbs(stored)
    ensures IsAbs(rendered) ==> Resolve(Dir(dst), stored) == Clean(rendered)
    ensures !IsAbs(rendered) ==> stored == rendered
  {
    if IsAbs(rendered) then
      RelResolves(Dir(dst), Clean(rendered));
      Rel(Dir(dst), Clean(rendered))
    else rendered
  }

  /**
   * `scaffold(srcDir, dstDir, ctx)` on the listing `children` of `srcDir`:
   * `dstDir` is created unless something is already there, then the
   * entries are handled in listing order until one fails.
   */
  ghost function ScaffoldDir(env: Env, children: seq<ST.Entry>, srcDir: Path, dstDir: Path, ctx: Value, run: Run): (p: Progress)
    ensures Follows(run, p.run)
    decreases ST.SizeAll(children), 3, 0
  {
    var made := Mkdir(run.fs, dstDir);
    if made.Err? && !made.error.AlreadyExists? then Progress(run, R.Some(CreateDirFailed(made.error)))
    else
      var fs := if made.Ok? then made.value else run.fs;
      ScaffoldEntries(env, children, srcDir, dstDir, ctx, run.(fs := fs))
  }

  /** The loop over a listing, stopping at the first error. */
  ghost function ScaffoldEntries(env: Env, entries: seq<ST.Entry>, srcDir: Path, dstDir: Path, ctx: Value, run: Run): (p: Progress)
    ensures Follows(run, p.run)
    decreases ST.SizeAll(entries), 2, 0
  {
    if entries == [] then Progress(run, R.None)
    else
      var first := ScaffoldOne(env, entries[0], srcDir, dstDir, ctx, run);
      if first.err.Some? then first
      else ScaffoldEntries(env, entries[1..], srcDir, dstDir, ctx, first.run)
  }

  /** One entry of `srcDir`: decided by `Decide`, then materialized once per destination. */
  ghost function ScaffoldOne(env: Env, e: ST.Entry, srcDir: Path, dstDir: Path, ctx: Value, run: Run): (p: Progress)
    ensures Follows(run, p.run)
    decreases ST.Size(e), 1, 0
  {
    var srcPath := Resolve(srcDir, e.name);
    match Decide(env, srcPath, e.name, dstDir, ctx)
    case Excluded => Progress(run, R.None)
    case Unnamed => Progress(run, R.None)
    case Failed(err) => Progress(run, R.Some(err))
    case Single(dst) => ScaffoldEntry(env, e, srcPath, dst, ctx, run)
    case FanOut(dirs) => FanOutAll(env, e, srcPath, dstDir, dirs, Enumerate(dirs.Keys), run)
  }

  /** The fan-out loop: `e` materialized at `dstDir/name` with that name's context, for each name of `order`. */
  ghost function FanOutAll(env: Env, e: ST.Entry, srcPath: Path, dstDir: Path, dirs: map<string, Value>, order: seq<string>, run: Run): (p: Progress)
    requires forall k :: 0 <= k < |order| ==> order[k] in dirs
    ensures Follows(run, p.run)
    decreases ST.Size(e), 0, |order|
  {
    if order == [] then Progress(run, R.None)
    else
      var first := ScaffoldEntry(env, e, srcPath, Resolve(dstDir, order[0]), dirs[order[0]], run);
      if first.err.Some? then first
      else FanOutAll(env, e, srcPath, dstDir, dirs, order[1..], first.run)
  }

  /**
   * `scaffoldEntry(srcPath, dst, ctx)`: a link only records its rendered
   * target; a directory is created, announced to the plugins, and walked; a
   * regular file is rendered, written with the source mode, and announced;
   * anything else is an error.  The `Materialized` event marks the call.
   */
  ghost function ScaffoldEntry(env: Env, e: ST.Entry, srcPath: Path, dst: Path, ctx: Value, run0: Run): (p: Progress)
    ensures Follows(run0, p.run)
    ensures run0.log + [Materialized(srcPath, dst, ctx)] <= p.run.log
    decreases ST.Size(e), 0, 0
  {
    var run := run0.(log := run0.log + [Materialized(srcPath, dst, ctx)]);
    match e.kind
    case Symlink(target) =>
      (match env.engine.render(target, ctx, EntryFuncs(env))
       case RenderFailed => Progress(run, R.Some(TargetTemplateFailed(srcPath)))
       case Rendered(text, _) => Progress(run.(pending := run.pending[dst := StoredTarget(dst, text)]), R.None))
    case Directory(children) =>
      (match MkdirAll(run.fs, dst)
       case Err(err) => Progress(run, R.Some(CreateDirFailed(err)))
       case Ok(fs) =>
         var hooked := AfterEachStep(env, dst, run.(fs := fs));
         if hooked.err.Some? then hooked
         else
           var q := ScaffoldDir(env, children, srcPath, dst, ctx, hooked.run);
           StepFollows(run0, Materialized(srcPath, dst, ctx), fs, q.run);
           q)
    case Regular(mode, content) =>
      (match env.engine.render(content, ctx, EntryFuncs(env))
       case RenderFailed => Progress(run, R.Some(ContentTemplateFailed(srcPath)))
       case Rendered(text, _) =>
         (match WriteFile(run.fs, dst, text, mode)
          case Err(err) => Progress(run, R.Some(WriteFailed(err)))
          case Ok(fs) =>
            WriteGrows(run.fs, dst, text, mode);
            AfterEachStep(env, dst, run.(fs := fs))))
    case Other => Progress(run, R.Some(UnsupportedType(srcPath)))
  }

  /** A step that records `ev`, grows the file system to `fs`, and then goes on to `last`, follows `run0`. */
  lemma StepFollows(run0: Run, ev: Event, fs: Fs, last: Run)
    requires Grows(run0.fs, fs)
    requires Follows(run0.(log := run0.log + [ev], fs := fs), last)
    ensures Follows(run0, last) && run0.log + [ev] <= last.log
  {
  }

  /** `os.WriteFile` only adds or replaces a non-directory. */
  lemma WriteGrows(fs: Fs, p: Path, content: string, mode: Mode)
    requires WriteFile(fs, p, content, mode).Ok?
    ensures Grows(fs, WriteFile(fs, p, content, mode).value)
  {
  }

  // ---------------------------------------------------------------------
  // Where each source entry lands

  /** The destinations and contexts the source path `src` was materialized with, in order. */
  function Placements(log: seq<Event>, src: Path): seq<(Path, Value)>
    decreases |log|
  {
    if log == [] then []
    else
      var ev := log[|log| - 1];
      Placements(log[..|log| - 1], src) + (if ev.Materialized? && ev.src == src then [(ev.dst, ev.ctx)] else [])
  }

  lemma {:induction false} PlacementsAppend(a: seq<Event>, b: seq<Event>, src: Path)
    ensures Placements(a + b, src) == Placements(a, src) + Placements(b, src)
    decreases |b|
  {
    if b == [] {
      assert a + b == a;
    } else {
      var init := b[..|b| - 1];
      assert (a + b)[..|a + b| - 1] == a + init;
      assert (a + b)[|a + b| - 1] == b[|b| - 1];
      PlacementsAppend(a, init, src);
    }
  }

  /** Every source materialized in `events` is `p` or lies inside it. */
  ghost predicate Under(events: seq<Event>, p: Path) {
    forall i :: 0 <= i < |events| && events[i].Materialized? ==> p <= events[i].src
  }

  /** Every source materialized in `events` lies strictly inside `p`. */
  ghost predicate StrictlyUnder(events: seq<Event>, p: Path) {
    forall i :: 0 <= i < |events| && events[i].Materialized? ==> p < events[i].src
  }

  lemma {:induction false} NoPlacementsUnder(events: seq<Event>, p: Path)
    requires StrictlyUnder(events, p)
    ensures Placements(events, p) == []
    decreases |events|
  {
    if events != [] {
      NoPlacementsUnder(events[..|events| - 1], p);
    }
  }

  /** The events added between `a` and `c` are those added between `a` and `b`, then between `b` and `c`. */
  lemma SliceSplit(a: seq<Event>, b: seq<Event>, c: seq<Event>)
    requires a <= b <= c
    ensures c[|a|..] == b[|a|..] + c[|b|..]
  {
  }

  lemma UnderAppend(a: seq<Event>, b: seq<Event>, p: Path)
    requires Under(a, p) && Under(b, p)
    ensures Under(a + b, p)
  {
    forall i | 0 <= i < |a + b| && (a + b)[i].Materialized? ensures p <= (a + b)[i].src {
      if i >= |a| {
        assert (a + b)[i] == b[i - |a|];
      }
    }
  }

  lemma StrictlyUnderAppend(a: seq<Event>, b: seq<Event>, p: Path)
    requires StrictlyUnder(a, p) && StrictlyUnder(b, p)
    ensures StrictlyUnder(a + b, p)
  {
    forall i | 0 <= i < |a + b| && (a + b)[i].Materialized? ensures p < (a + b)[i].src {
      if i >= |a| {
        assert (a + b)[i] == b[i - |a|];
      }
    }
  }

  lemma UnderChild(events: seq<Event>, dir: Path, name: string)
    requires Under(events, dir + [name])
    ensures StrictlyUnder(events, dir)
  {
    forall i | 0 <= i < |events| && events[i].Materialized? ensures dir < events[i].src {
      assert dir + [name] <= events[i].src;
      assert events[i].src[..|dir|] == (dir + [name])[..|dir|];
    }
  }

  lemma {:induction false} DirUnder(env: Env, children: seq<ST.Entry>, srcDir: Path, dstDir: Path, ctx: Value, run: Run)
    requires ST.WellFormedAll(children)
    ensures StrictlyUnder(ScaffoldDir(env, children, srcDir, dstDir, ctx, run).run.log[|run.log|..], srcDir)
    decreases ST.SizeAll(children), 3, 0
  {
    var made := Mkdir(run.fs, dstDir);
    if !(made.Err? && !made.error.AlreadyExists?) {
      var fs := if made.Ok? then made.value else run.fs;
      EntriesUnder(env, children, srcDir, dstDir, ctx, run.(fs := fs));
    }
  }

  lemma {:induction false} EntriesUnder(env: Env, entries: seq<ST.Entry>, srcDir: Path, dstDir: Path, ctx: Value, run: Run)
    requires ST.WellFormedAll(entries)
    ensures StrictlyUnder(ScaffoldEntries(env, entries, srcDir, dstDir, ctx, run).run.log[|run.log|..], srcDir)
    decreases ST.SizeAll(entries), 2, 0
  {
    if entries != [] {
      var first := ScaffoldOne(env, entries[0], srcDir, dstDir, ctx, run);
      OneUnder(env, entries[0], srcDir, dstDir, ctx, run);
      if first.err.None? {
        var p := ScaffoldEntries(env, entries, srcDir, dstDir, ctx, run);
        EntriesUnder(env, entries[1..], srcDir, dstDir, ctx, first.run);
        SliceSplit(run.log, first.run.log, p.run.log);
        StrictlyUnderAppend(first.run.log[|run.log|..], p.run.log[|first.run.log|..], srcDir);
      }
    }
  }

  lemma {:induction false} OneUnder(env: Env, e: ST.Entry, srcDir: Path, dstDir: Path, ctx: Value, run: Run)
    requires ST.WellFormed(e)
    ensures StrictlyUnder(ScaffoldOne(env, e, srcDir, dstDir, ctx, run).run.log[|run.log|..], srcDir)
    decreases ST.Size(e), 1, 0
  {
    var srcPath := Resolve(srcDir, e.name);
    var p := ScaffoldOne(env, e, srcDir, dstDir, ctx, run);
    ResolveSegment(srcDir, e.name);
    var d := Decide(env, srcPath, e.name, dstDir, ctx);
    if d.Single? {
      EntryUnder(env, e, srcPath, d.dst, ctx, run);
      UnderChild(p.run.log[|run.log|..], srcDir, e.name);
    } else if d.FanOut? {
      FanOutUnder(env, e, srcPath, dstDir, d.dirs, Enumerate(d.dirs.Keys), run);
      UnderChild(p.run.log[|run.log|..], srcDir, e.name);
    } else {
      assert p.run == run;
      assert p.run.log[|run.log|..] == [];
    }
  }

  lemma {:induction false} FanOutUnder(env: Env, e: ST.Entry, srcPath: Path, dstDir: Path, dirs: map<string, Value>, order: seq<string>, run: Run)
    requires ST.WellFormed(e)
    requires forall k :: 0 <= k < |order| ==> order[k] in dirs
    ensures Under(FanOutAll(env, e, srcPath, dstDir, dirs, order, run).run.log[|run.log|..], srcPath)
    decreases ST.Size(e), 0, |order| + 1
  {
    if order != [] {
      var first := ScaffoldEntry(env, e, srcPath, Resolve(dstDir, order[0]), dirs[order[0]], run);
      EntryUnder(env, e, srcPath, Resolve(dstDir, order[0]), dirs[order[0]], run);
      if first.err.None? {
        var p := FanOutAll(env, e, srcPath, dstDir, dirs, order, run);
        FanOutUnder(env, e, srcPath, dstDir, dirs, order[1..], first.run);
        SliceSplit(run.log, first.run.log, p.run.log);
        UnderAppend(first.run.log[|run.log|..], p.run.log[|first.run.log|..], srcPath);
      }
    }
  }

  lemma {:induction false} EntryUnder(env: Env, e: ST.Entry, srcPath: Path, dst: Path, ctx: Value, run0: Run)
    requires ST.WellFormed(e)
    ensures var p := ScaffoldEntry(env, e, srcPath, dst, ctx, run0);
      Under(p.run.log[|run0.log|..], srcPath) && StrictlyUnder(p.run.log[|run0.log| + 1..], srcPath)
    decreases ST.Size(e), 0, 1
  {
    var p := ScaffoldEntry(env, e, srcPath, dst, ctx, run0);
    var run := run0.(log := run0.log + [Materialized(srcPath, dst, ctx)]);
    var rest := p.run.log[|run.log|..];
    assert p.run.log[|run0.log|..] == [Materialized(srcPath, dst, ctx)] + rest;
    if e.kind.Directory? {
      DirEntryUnder(env, e, srcPath, dst, ctx, run0);
    } else {
      assert StrictlyUnder(rest, srcPath);
    }
    assert Under([Materialized(srcPath, dst, ctx)], srcPath);
    UnderAppend([Materialized(srcPath, dst, ctx)], rest, srcPath);
  }

  /** A directory entry: the walk of its children places only paths below it. */
  lemma {:induction false} DirEntryUnder(env: Env, e: ST.Entry, srcPath: Path, dst: Path, ctx: Value, run0: Run)
    requires ST.WellFormed(e) && e.kind.Directory?
    ensures var p := ScaffoldEntry(env, e, srcPath, dst, ctx, run0);
      StrictlyUnder(p.run.log[|run0.log| + 1..], srcPath)
    decreases ST.Size(e), 0, 0
  {
    var p := ScaffoldEntry(env, e, srcPath, dst, ctx, run0);
    var run := run0.(log := run0.log + [Materialized(srcPath, dst, ctx)]);
    match MkdirAll(run.fs, dst)
    case Err(_) =>
      assert p.run.log[|run.log|..] == [];
    case Ok(fs) =>
      var hooked := AfterEachStep(env, dst, run.(fs := fs));
      assert StrictlyUnder(hooked.run.log[|run.log|..], srcPath);
      if hooked.err.None? {
        DirUnder(env, e.kind.children, srcPath, dst, ctx, hooked.run);
        SliceSplit(run.log, hooked.run.log, p.run.log);
        StrictlyUnderAppend(hooked.run.log[|run.log|..], p.run.log[|hooked.run.log|..], srcPath);
      } else {
        assert p == hooked;
      }
  }

  /** One `scaffoldEntry` call places its source once, at its destination with its context, whatever happens after. */
  lemma EntryPlacedOnce(env: Env, e: ST.Entry, srcPath: Path, dst: Path, ctx: Value, run0: Run)
    requires ST.WellFormed(e)
    ensures Placements(ScaffoldEntry(env, e, srcPath, dst, ctx, run0).run.log[|run0.log|..], srcPath) == [(dst, ctx)]
  {
    var p := ScaffoldEntry(env, e, srcPath, dst, ctx, run0);
    var m := Materialized(srcPath, dst, ctx);
    EntryUnder(env, e, srcPath, dst, ctx, run0);
    var rest := p.run.log[|run0.log| + 1..];
    assert p.run.log[|run0.log|..] == [m] + rest;
    PlacementsAppend([m], rest, srcPath);
    NoPlacementsUnder(rest, srcPath);
    assert [m][..0] == [];
  }

  /** The destinations of a fan-out, in the order the loop visits the names. */
  function Destinations(dstDir: Path, dirs: map<string, Value>, order: seq<string>): (ds: seq<(Path, Value)>)
    requires forall k :: 0 <= k < |order| ==> order[k] in dirs
    ensures |ds| == |order|
    ensures forall k :: 0 <= k < |order| ==> ds[k] == (Resolve(dstDir, order[k]), dirs[order[k]])
  {
    seq(|order|, k requires 0 <= k < |order| => (Resolve(dstDir, order[k]), dirs[order[k]]))
  }

  /**
   * The fan-out loop places the entry at `dstDir/name` with that name's
   * context, once per name in loop order; an error cuts the list short.
   */
  lemma {:induction false} FanOutPlacements(env: Env, e: ST.Entry, srcPath: Path, dstDir: Path, dirs: map<string, Value>, order: seq<string>, run: Run)
    requires ST.WellFormed(e)
    requires forall k :: 0 <= k < |order| ==> order[k] in dirs
    ensures var p := FanOutAll(env, e, srcPath, dstDir, dirs, order, run);
      var placed := Placements(p.run.log[|run.log|..], srcPath);
      && placed <= Destinations(dstDir, dirs, order)
      && (p.err.None? ==> placed == Destinations(dstDir, dirs, order))
    decreases |order|
  {
    var p := FanOutAll(env, e, srcPath, dstDir, dirs, order, run);
    if order == [] {
      assert p.run.log[|run.log|..] == [];
    } else {
      var dst := Resolve(dstDir, order[0]);
      var first := ScaffoldEntry(env, e, srcPath, dst, dirs[order[0]], run);
      EntryPlacedOnce(env, e, srcPath, dst, dirs[order[0]], run);
      var all := Destinations(dstDir, dirs, order);
      var tail := Destinations(dstDir, dirs, order[1..]);
      assert all == [(dst, dirs[order[0]])] + tail;
      if first.err.None? {
        FanOutPlacements(env, e, srcPath, dstDir, dirs, order[1..], first.run);
        PlacedThen(run.log, first.run.log, p.run.log, srcPath, (dst, dirs[order[0]]), tail);
      }
    }
  }

  /** One placement, then placements along a prefix of `tail`, are placements along a prefix of the whole list. */
  lemma PlacedThen(l0: seq<Event>, l1: seq<Event>, l2: seq<Event>, src: Path, head: (Path, Value), tail: seq<(Path, Value)>)
    requires l0 <= l1 <= l2
    requires Placements(l1[|l0|..], src) == [head]
    requires Placements(l2[|l1|..], src) <= tail
    ensures Placements(l2[|l0|..], src) == [head] + Placements(l2[|l1|..], src)
    ensures Placements(l2[|l0|..], src) <= [head] + tail
    ensures Placements(l2[|l1|..], src) == tail ==> Placements(l2[|l0|..], src) == [head] + tail
  {
    SliceSplit(l0, l1, l2);
    PlacementsAppend(l1[|l0|..], l2[|l1|..], src);
  }

  /** Some call with the name `n` is the last call with that name. */
  lemma {:induction false} LastCallExists(calls: seq<DirCall>, n: string)
    requires exists i :: 0 <= i < |calls| && calls[i].name == n
    ensures exists i :: 0 <= i < |calls| && calls[i].name == n && LastCallFor(calls, i)
    decreases |calls|
  {
    var last := |calls| - 1;
    if calls[last].name == n {
      assert LastCallFor(calls, last);
    } else {
      var init := calls[..last];
      var i :| 0 <= i < |calls| && calls[i].name == n;
      assert init[i] == calls[i];
      LastCallExists(init, n);
      var j :| 0 <= j < |init| && init[j].name == n && LastCallFor(init, j);
      assert calls[j] == init[j];
      assert LastCallFor(calls, j);
    }
  }

  /**
   * Where one entry lands (scaffolder.go:165-196).  With no `dir` call in
   * its name it is placed once, at the trimmed rendered name with the
   * parent context.  Otherwise, when nothing fails, it is placed once per
   * distinct name `dir` was called with, at `dstDir/name`, with the context
   * of the last call for that name, and nowhere else.
   */
  lemma EntryPlacements(env: Env, e: ST.Entry, srcDir: Path, dstDir: Path, ctx: Value, run: Run)
    requires ST.WellFormed(e)
    ensures
      var srcPath := Resolve(srcDir, e.name);
      var rendered := env.engine.render(e.name, ctx, EntryFuncs(env));
      var p := ScaffoldOne(env, e, srcDir, dstDir, ctx, run);
      var placed := Placements(p.run.log[|run.log|..], srcPath);
      MatchExcludes(env.engine, env.exclude, Rel(env.sourceRoot, srcPath)) == R.Ok(false)
      && rendered.Rendered? && rendered.text != "" ==>
        && (rendered.dirCalls == [] ==>
              placed == [(TrimTemplateSuffix(Resolve(dstDir, rendered.text)), ctx)])
        && (rendered.dirCalls != [] && p.err.None? ==>
              && |placed| == |Recorded(rendered.dirCalls)|
              && forall pl :: pl in placed <==>
                   exists i :: 0 <= i < |rendered.dirCalls| && LastCallFor(rendered.dirCalls, i)
                     && pl == (Resolve(dstDir, rendered.dirCalls[i].name), rendered.dirCalls[i].ctx))
  {
    var srcPath := Resolve(srcDir, e.name);
    var rendered := env.engine.render(e.name, ctx, EntryFuncs(env));
    var p := ScaffoldOne(env, e, srcDir, dstDir, ctx, run);
    var placed := Placements(p.run.log[|run.log|..], srcPath);
    var d := Decide(env, srcPath, e.name, dstDir, ctx);
    if d.Single? {
      EntryPlacedOnce(env, e, srcPath, d.dst, ctx, run);
    } else if d.FanOut? && p.err.None? {
      var order := Enumerate(d.dirs.Keys);
      FanOutPlacements(env, e, srcPath, dstDir, d.dirs, order, run);
      CallsPlaced(dstDir, rendered.dirCalls, order);
    }
  }

  /** Fanning out over a listing of the recorded names reaches exactly the last call of each name. */
  lemma {:induction false} CallsPlaced(dstDir: Path, calls: seq<DirCall>, order: seq<string>)
    requires forall n :: n in order <==> n in Recorded(calls)
    requires |order| == |Recorded(calls)|
    ensures var placed := Destinations(dstDir, Recorded(calls), order);
      forall pl :: pl in placed <==>
        exists i :: 0 <= i < |calls| && LastCallFor(calls, i) && pl == (Resolve(dstDir, calls[i].name), calls[i].ctx)
  {
    var placed := Destinations(dstDir, Recorded(calls), order);
    forall k | 0 <= k < |placed|
      ensures exists i :: 0 <= i < |calls| && LastCallFor(calls, i) && placed[k] == (Resolve(dstDir, calls[i].name), calls[i].ctx)
    {
      PlacedFromLastCall(dstDir, calls, order, k);
    }
    forall i | 0 <= i < |calls| && LastCallFor(calls, i)
      ensures (Resolve(dstDir, calls[i].name), calls[i].ctx) in placed
    {
      LastCallPlaced(dstDir, calls, order, i);
    }
  }

  lemma {:induction false} PlacedFromLastCall(dstDir: Path, calls: seq<DirCall>, order: seq<string>, k: int)
    requires forall n :: n in order <==> n in Recorded(calls)
    requires 0 <= k < |order|
    ensures exists i :: (0 <= i < |calls| && LastCallFor(calls, i)
      && Destinations(dstDir, Recorded(calls), order)[k] == (Resolve(dstDir, calls[i].name), calls[i].ctx))
  {
    var n := order[k];
    RecordedKeys(calls);
    assert n in Recorded(calls);
    LastCallExists(calls, n);
    var i :| 0 <= i < |calls| && calls[i].name == n && LastCallFor(calls, i);
    RecordedLastWins(calls, i);
  }

  lemma {:induction false} LastCallPlaced(dstDir: Path, calls: seq<DirCall>, order: seq<string>, i: int)
    requires forall n :: n in order <==> n in Recorded(calls)
    requires 0 <= i < |calls| && LastCallFor(calls, i)
    ensures (Resolve(dstDir, calls[i].name), calls[i].ctx) in Destinations(dstDir, Recorded(calls), order)
  {
    RecordedLastWins(calls, i);
    var n := calls[i].name;
    var k :| 0 <= k < |order| && order[k] == n;
    assert Destinations(dstDir, Recorded(calls), order)[k] == (Resolve(dstDir, n), calls[i].ctx);
  }

  // ---------------------------------------------------------------------
  // What `scaffoldEntry` does, by kind (scaffolder.go:201-259)

  /** Where the OS finds the file a link in directory `dir` holding `text` points at. */
  function Pointee(dir: Path, text: string): Path {
    if IsAbs(text) then Clean(text) else Resolve(dir, text)
  }

  /**
   * A symbolic link is not created during the walk: its rendered target is
   * recorded for `dst`, as relative text that points where the rendered
   * target points, and nothing else changes; no plugin runs on it.
   */
  lemma SymlinkEntry(env: Env, e: ST.Entry, srcPath: Path, dst: Path, ctx: Value, run0: Run)
    requires e.kind.Symlink?
    ensures var p := ScaffoldEntry(env, e, srcPath, dst, ctx, run0);
      var r := env.engine.render(e.kind.target, ctx, EntryFuncs(env));
      && p.run.fs == run0.fs
      && p.run.log == run0.log + [Materialized(srcPath, dst, ctx)]
      && (p.err.Some? <==> r.RenderFailed?)
      && (p.err.Some? ==> p.err.value == TargetTemplateFailed(srcPath))
      && (r.Rendered? ==>
            && dst in p.run.pending
            && !IsAbs(p.run.pending[dst])
            && Resolve(Dir(dst), p.run.pending[dst]) == Pointee(Dir(dst), r.text)
            && p.run.pending == run0.pending[dst := p.run.pending[dst]])
  {
  }

  /**
   * A directory is created with its missing parents, with mode 0700 (an
   * existing directory is fine), every plugin's `AfterEach` runs on it in
   * order, and only then is the source directory walked into it.
   */
  lemma DirectoryEntry(env: Env, e: ST.Entry, srcPath: Path, dst: Path, ctx: Value, run0: Run)
    requires e.kind.Directory?
    ensures var p := ScaffoldEntry(env, e, srcPath, dst, ctx, run0);
      var m := Materialized(srcPath, dst, ctx);
      && (p.err.None? ==>
            && IsDir(p.run.fs, dst)
            && (forall k :: 0 <= k < |env.plugins| ==> env.plugins[k].afterEach(dst) == Pass)
            && run0.log + [m] + AfterEachCalls(dst, 0, |env.plugins|) <= p.run.log)
      && (IsDir(run0.fs, dst) && (forall k :: 0 <= k < |env.plugins| ==> env.plugins[k].afterEach(dst) == Pass) ==>
            p == ScaffoldDir(env, e.kind.children, srcPath, dst, ctx,
                   Run(run0.fs, run0.pending, run0.log + [m] + AfterEachCalls(dst, 0, |env.plugins|))))
      && (p.err.None? && !Exists(run0.fs, dst) ==> dst in p.run.fs && p.run.fs[dst] == Directory(DirMode))
      && (MkdirAll(run0.fs, dst).Err? ==> p.err == R.Some(CreateDirFailed(MkdirAll(run0.fs, dst).error)))
  {
    var p := ScaffoldEntry(env, e, srcPath, dst, ctx, run0);
    var run := run0.(log := run0.log + [Materialized(srcPath, dst, ctx)]);
    match MkdirAll(run.fs, dst)
    case Err(_) =>
    case Ok(fs) =>
      var hooked := AfterEachStep(env, dst, run.(fs := fs));
      if hooked.err.None? {
        var walked := ScaffoldDir(env, e.kind.children, srcPath, dst, ctx, hooked.run);
        assert Grows(hooked.run.fs, walked.run.fs);
        assert IsDir(hooked.run.fs, dst);
      }
  }

  /**
   * A regular file is rendered and written at `dst` with the source mode
   * (a file already there keeps its mode), then every plugin's `AfterEach`
   * runs on it in order.  Nothing else in the destination changes.
   */
  lemma RegularEntry(env: Env, e: ST.Entry, srcPath: Path, dst: Path, ctx: Value, run0: Run)
    requires e.kind.Regular?
    ensures var p := ScaffoldEntry(env, e, srcPath, dst, ctx, run0);
      var r := env.engine.render(e.kind.content, ctx, EntryFuncs(env));
      var m := Materialized(srcPath, dst, ctx);
      && p.run.pending == run0.pending
      && (r.RenderFailed? ==> p.err == R.Some(ContentTemplateFailed(srcPath)) && p.run.fs == run0.fs)
      && (r.Rendered? && IsDir(run0.fs, dst) ==> p.err == R.Some(WriteFailed(IsADirectory(dst))) && p.run.fs == run0.fs)
      && (p.err.None? <==>
            && r.Rendered? && WriteFile(run0.fs, dst, r.text, e.kind.mode).Ok?
            && forall k :: 0 <= k < |env.plugins| ==> env.plugins[k].afterEach(dst) == Pass)
      && (p.err.None? ==>
            && p.run.fs == run0.fs[dst := RegularFile(FileMode(run0.fs, dst, e.kind.mode), r.text)]
            && p.run.log == run0.log + [m] + AfterEachCalls(dst, 0, |env.plugins|))
  {
  }

  /** The mode a written file ends up with: the source mode, unless a regular file was already there. */
  function FileMode(fs: Fs, p: Path, mode: Mode): Mode {
    if p in fs && fs[p].RegularFile? then fs[p].mode else mode
  }

  /** Any other kind of entry (a device, a socket, a pipe) is an error, and nothing is written. */
  lemma OtherEntry(env: Env, e: ST.Entry, srcPath: Path, dst: Path, ctx: Value, run0: Run)
    requires e.kind.Other?
    ensures var p := ScaffoldEntry(env, e, srcPath, dst, ctx, run0);
      && p.err == R.Some(UnsupportedType(srcPath))
      && p.run.fs == run0.fs && p.run.pending == run0.pending
  {
  }

  // ---------------------------------------------------------------------
  // Entries that are skipped, and the fan-out

  /** The source path relative to the source root matches an exclusion pattern before any invalid one. */
  predicate IsExcluded(env: Env, srcPath: Path) {
    MatchExcludes(env.engine, env.exclude, Rel(env.sourceRoot, srcPath)) == R.Ok(true)
  }

  /** The entry's name renders to the empty string. */
  predicate RendersEmpty(env: Env, name: string, ctx: Value) {
    var r := env.engine.render(name, ctx, EntryFuncs(env));
    r.Rendered? && r.text == ""
  }

  /** An excluded entry, or one whose name renders empty, is skipped without error or trace. */
  lemma EntryDropped(env: Env, e: ST.Entry, srcDir: Path, dstDir: Path, ctx: Value, run: Run)
    requires var srcPath := Resolve(srcDir, e.name);
      || IsExcluded(env, srcPath)
      || (MatchExcludes(env.engine, env.exclude, Rel(env.sourceRoot, srcPath)).Ok? && RendersEmpty(env, e.name, ctx))
    ensures ScaffoldOne(env, e, srcDir, dstDir, ctx, run) == Progress(run, R.None)
  {
    var d := Decide(env, Resolve(srcDir, e.name), e.name, dstDir, ctx);
    assert d == Excluded || d == Unnamed;
  }

  /** Those are the only entries the walk passes over without failing and without materializing anything. */
  lemma {:induction false} OnlyDroppedLeaveNoTrace(env: Env, e: ST.Entry, srcDir: Path, dstDir: Path, ctx: Value, run: Run)
    ensures var p := ScaffoldOne(env, e, srcDir, dstDir, ctx, run);
      p.err.None? && p.run.log == run.log ==>
        IsExcluded(env, Resolve(srcDir, e.name)) || RendersEmpty(env, e.name, ctx)
  {
    var srcPath := Resolve(srcDir, e.name);
    var p := ScaffoldOne(env, e, srcDir, dstDir, ctx, run);
    var d := Decide(env, srcPath, e.name, dstDir, ctx);
    if d.Single? {
      assert p == ScaffoldEntry(env, e, srcPath, d.dst, ctx, run);
      assert |p.run.log| >= |run.log| + 1;
    } else if d.FanOut? {
      FanOutOneLeavesTrace(env, e, srcDir, dstDir, ctx, run);
    }
  }

  /** An entry that fans out materializes at least once, there being at least one recorded name. */
  lemma FanOutOneLeavesTrace(env: Env, e: ST.Entry, srcDir: Path, dstDir: Path, ctx: Value, run: Run)
    requires Decide(env, Resolve(srcDir, e.name), e.name, dstDir, ctx).FanOut?
    ensures |ScaffoldOne(env, e, srcDir, dstDir, ctx, run).run.log| > |run.log|
  {
    var srcPath := Resolve(srcDir, e.name);
    var d := Decide(env, srcPath, e.name, dstDir, ctx);
    FanOutNamesSome(env, srcPath, e.name, dstDir, ctx);
    FanOutLeavesTrace(env, e, srcPath, dstDir, d.dirs, Enumerate(d.dirs.Keys), run);
  }

  /** A fan-out lists at least one name: the first `dir` call's. */
  lemma FanOutNamesSome(env: Env, srcPath: Path, name: string, dstDir: Path, ctx: Value)
    requires Decide(env, srcPath, name, dstDir, ctx).FanOut?
    ensures Enumerate(Decide(env, srcPath, name, dstDir, ctx).dirs.Keys) != []
  {
    var dirs := Decide(env, srcPath, name, dstDir, ctx).dirs;
    var calls := env.engine.render(name, ctx, EntryFuncs(env)).dirCalls;
    RecordedKeys(calls);
    assert calls[0].name in Enumerate(dirs.Keys);
  }

  /** A fan-out over at least one name materializes the entry at least once. */
  lemma FanOutLeavesTrace(env: Env, e: ST.Entry, srcPath: Path, dstDir: Path, dirs: map<string, Value>, order: seq<string>, run: Run)
    requires |order| > 0 && forall k :: 0 <= k < |order| ==> order[k] in dirs
    ensures |FanOutAll(env, e, srcPath, dstDir, dirs, order, run).run.log| > |run.log|
  {
    var first := ScaffoldEntry(env, e, srcPath, Resolve(dstDir, order[0]), dirs[order[0]], run);
    assert |first.run.log| > |run.log|;
    if first.err.None? {
      assert Follows(first.run, FanOutAll(env, e, srcPath, dstDir, dirs, order[1..], first.run).run);
    }
  }

  /** A valid pattern that matches excludes the entry whatever patterns follow, invalid ones included. */
  lemma MatchedBeforeInvalid(env: Env, e: ST.Entry, srcDir: Path, dstDir: Path, ctx: Value, run: Run, i: int)
    requires 0 <= i < |env.exclude|
    requires PassesBefore(env.engine, env.exclude, Rel(env.sourceRoot, Resolve(srcDir, e.name)), i)
    requires env.engine.validPattern(env.exclude[i])
    requires env.engine.matches(env.exclude[i], Rel(env.sourceRoot, Resolve(srcDir, e.name)))
    ensures ScaffoldOne(env, e, srcDir, dstDir, ctx, run) == Progress(run, R.None)
  {
    MatchExcludesSpec(env.engine, env.exclude, Rel(env.sourceRoot, Resolve(srcDir, e.name)));
  }

  /** An invalid pattern reached before any match stops the walk with that pattern, before anything is written. */
  lemma InvalidPatternFails(env: Env, e: ST.Entry, srcDir: Path, dstDir: Path, ctx: Value, run: Run, i: int)
    requires 0 <= i < |env.exclude|
    requires PassesBefore(env.engine, env.exclude, Rel(env.sourceRoot, Resolve(srcDir, e.name)), i)
    requires !env.engine.validPattern(env.exclude[i])
    ensures ScaffoldOne(env, e, srcDir, dstDir, ctx, run) == Progress(run, R.Some(InvalidExclude(env.exclude[i])))
  {
    var rel := Rel(env.sourceRoot, Resolve(srcDir, e.name));
    FirstInvalid(env.engine, env.exclude, rel, i);
  }

  // ---------------------------------------------------------------------
  // Every destination the walk materializes is there when it succeeds

  /** Each destination materialized in `events` exists in `run`'s file system or has a link recorded for it. */
  ghost predicate Landed(events: seq<Event>, run: Run) {
    forall i :: 0 <= i < |events| && events[i].Materialized? ==>
      Exists(run.fs, events[i].dst) || events[i].dst in run.pending
  }

  lemma LandedFollows(events: seq<Event>, run: Run, run': Run)
    requires Landed(events, run) && Follows(run, run')
    ensures Landed(events, run')
  {
  }

  lemma LandedAppend(a: seq<Event>, b: seq<Event>, run: Run)
    requires Landed(a, run) && Landed(b, run)
    ensures Landed(a + b, run)
  {
    forall i | 0 <= i < |a + b| && (a + b)[i].Materialized?
      ensures Exists(run.fs, (a + b)[i].dst) || (a + b)[i].dst in run.pending
    {
      if i >= |a| {
        assert (a + b)[i] == b[i - |a|];
      }
    }
  }

  lemma {:induction false} DirLands(env: Env, children: seq<ST.Entry>, srcDir: Path, dstDir: Path, ctx: Value, run: Run)
    ensures var p := ScaffoldDir(env, children, srcDir, dstDir, ctx, run);
      p.err.None? ==> Landed(p.run.log[|run.log|..], p.run)
    decreases ST.SizeAll(children), 3, 0
  {
    var made := Mkdir(run.fs, dstDir);
    if !(made.Err? && !made.error.AlreadyExists?) {
      var fs := if made.Ok? then made.value else run.fs;
      EntriesLand(env, children, srcDir, dstDir, ctx, run.(fs := fs));
    }
  }

  lemma {:induction false} EntriesLand(env: Env, entries: seq<ST.Entry>, srcDir: Path, dstDir: Path, ctx: Value, run: Run)
    ensures var p := ScaffoldEntries(env, entries, srcDir, dstDir, ctx, run);
      p.err.None? ==> Landed(p.run.log[|run.log|..], p.run)
    decreases ST.SizeAll(entries), 2, 0
  {
    var p := ScaffoldEntries(env, entries, srcDir, dstDir, ctx, run);
    if entries == [] {
      assert p.run.log[|run.log|..] == [];
    } else {
      var first := ScaffoldOne(env, entries[0], srcDir, dstDir, ctx, run);
      OneLands(env, entries[0], srcDir, dstDir, ctx, run);
      if first.err.None? {
        EntriesLand(env, entries[1..], srcDir, dstDir, ctx, first.run);
        if p.err.None? {
          LandedFollows(first.run.log[|run.log|..], first.run, p.run);
          SliceSplit(run.log, first.run.log, p.run.log);
          LandedAppend(first.run.log[|run.log|..], p.run.log[|first.run.log|..], p.run);
        }
      }
    }
  }

  lemma {:induction false} OneLands(env: Env, e: ST.Entry, srcDir: Path, dstDir: Path, ctx: Value, run: Run)
    ensures var p := ScaffoldOne(env, e, srcDir, dstDir, ctx, run);
      p.err.None? ==> Landed(p.run.log[|run.log|..], p.run)
    decreases ST.Size(e), 1, 0
  {
    var srcPath := Resolve(srcDir, e.name);
    var p := ScaffoldOne(env, e, srcDir, dstDir, ctx, run);
    var d := Decide(env, srcPath, e.name, dstDir, ctx);
    if d.Single? {
      EntryLands(env, e, srcPath, d.dst, ctx, run);
    } else if d.FanOut? {
      FanOutLands(env, e, srcPath, dstDir, d.dirs, Enumerate(d.dirs.Keys), run);
    } else {
      assert p.run == run;
      assert p.run.log[|run.log|..] == [];
    }
  }

  lemma {:induction false} FanOutLands(env: Env, e: ST.Entry, srcPath: Path, dstDir: Path, dirs: map<string, Value>, order: seq<string>, run: Run)
    requires forall k :: 0 <= k < |order| ==> order[k] in dirs
    ensures var p := FanOutAll(env, e, srcPath, dstDir, dirs, order, run);
      p.err.None? ==> Landed(p.run.log[|run.log|..], p.run)
    decreases ST.Size(e), 0, |order|
  {
    var p := FanOutAll(env, e, srcPath, dstDir, dirs, order, run);
    if order == [] {
      assert p.run.log[|run.log|..] == [];
    } else {
      var first := ScaffoldEntry(env, e, srcPath, Resolve(dstDir, order[0]), dirs[order[0]], run);
      EntryLands(env, e, srcPath, Resolve(dstDir, order[0]), dirs[order[0]], run);
      if first.err.None? {
        FanOutLands(env, e, srcPath, dstDir, dirs, order[1..], first.run);
        if p.err.None? {
          LandedFollows(first.run.log[|run.log|..], first.run, p.run);
          SliceSplit(run.log, first.run.log, p.run.log);
          LandedAppend(first.run.log[|run.log|..], p.run.log[|first.run.log|..], p.run);
        }
      }
    }
  }

  lemma {:induction false} EntryLands(env: Env, e: ST.Entry, srcPath: Path, dst: Path, ctx: Value, run0: Run)
    ensures var p := ScaffoldEntry(env, e, srcPath, dst, ctx, run0);
      p.err.None? ==> Landed(p.run.log[|run0.log|..], p.run)
    decreases ST.Size(e), 0, 0
  {
    var p := ScaffoldEntry(env, e, srcPath, dst, ctx, run0);
    var m := Materialized(srcPath, dst, ctx);
    var run := run0.(log := run0.log + [m]);
    if p.err.None? {
      var rest := p.run.log[|run.log|..];
      assert p.run.log[|run0.log|..] == [m] + rest;
      assert Exists(p.run.fs, dst) || dst in p.run.pending;
      assert Landed([m], p.run);
      match e.kind
      case Directory(children) =>
        var fs := MkdirAll(run.fs, dst).value;
        var hooked := AfterEachStep(env, dst, run.(fs := fs));
        DirLands(env, children, srcPath, dst, ctx, hooked.run);
        assert Landed(hooked.run.log[|run.log|..], p.run);
        SliceSplit(run.log, hooked.run.log, p.run.log);
        LandedAppend(hooked.run.log[|run.log|..], p.run.log[|hooked.run.log|..], p.run);
        LandedAppend([m], rest, p.run);
      case Symlink(_) =>
        assert rest == [];
        LandedAppend([m], rest, p.run);
      case Regular(_, _) =>
        assert Landed(rest, p.run);
        LandedAppend([m], rest, p.run);
      case Other =>
    }
  }

  // ---------------------------------------------------------------------
  // `Scaffold` (scaffolder.go:101-139)

  /**
   * How a run ends: the destination file system, the trace, the links made
   * by the deferred-link loop in order, and the error returned; or the
   * deferred-link loop never ends because some chain of recorded links
   * never leaves the records.
   */
  datatype Outcome =
    | Finished(fs: Fs, log: seq<Event>, linked: seq<Path>, err: R.Option<Error>)
    | Diverges(fs: Fs, log: seq<Event>)

  /** The options after every `Option` has been applied to the defaults (scaffolder.go:104-116). */
  function Configured(source: Path, destination: Path, ctx: Value, options: seq<Option>): ScaffoldOptions {
    ApplyOptions(Defaults(source, destination, ctx), options)
  }

  /** The plugins' `Extend` calls on the configured options (scaffolder.go:118-122). */
  function ExtendPhase(so: ScaffoldOptions): Extended {
    ExtendAll(so.plugins, so.config, [], 0)
  }

  /** What the walk reads: the configuration the plugins left, with every plugin's `AfterEach`. */
  function EnvOf(engine: Engine, so: ScaffoldOptions, ext: Extended): Env {
    Env(engine, so.plugins, ext.config.funcs, ext.config.exclude, ext.config.source)
  }

  /**
   * The walk from the source root into the destination, started on an
   * empty link record with the trace of the `Extend` calls, and with the
   * context the caller passed in (scaffolder.go:124-131).
   */
  ghost function WalkPhase(engine: Engine, tree: seq<ST.Entry>, so: ScaffoldOptions, ext: Extended, ctx: Value, fs0: Fs): Progress {
    ScaffoldDir(EnvOf(engine, so, ext), tree, so.config.source, so.config.target, ctx, Run(fs0, map[], ext.log))
  }

  /** Every chain of recorded links, followed from any record, leaves the records. */
  ghost predicate Acyclic(pending: Pending) {
    forall p :: p in pending ==> ChainLeaves(pending, p)
  }

  /**
   * The deferred-link loop after a successful walk (scaffolder.go:133-137),
   * over the records in some order.  Records whose chain leaves the records
   * are resolved; reaching one whose chain does not recurses without end,
   * unless a link error has stopped the loop first.  The file system of a
   * diverging run holds the links made before the cyclic record was reached.
   */
  ghost function LinkPhase(run: Run): (o: Outcome)
    ensures o.log == run.log
    ensures Acyclic(run.pending) ==> o.Finished?
    ensures o.Diverges? ==> !Acyclic(run.pending)
    ensures !Acyclic(run.pending) ==> o.Diverges? || (o.err.Some? && o.err.value.LinkFailed?)
  {
    var good := Leaving(run.pending);
    var order := Enumerate(run.pending.Keys);
    LeavingRanked(run.pending);
    var l := LinkLoop(Links(good, run.fs, []), run.pending.Keys - good.Keys, order, DistanceRank(run.pending));
    assert !Acyclic(run.pending) ==> exists i :: 0 <= i < |order| && order[i] in run.pending.Keys - good.Keys;
    if l.diverged then Diverges(l.links.fs, run.log)
    else Finished(l.links.fs, run.log, l.links.linked, if l.err.Some? then R.Some(LinkFailed(l.err.value)) else R.None)
  }

  /** With acyclic records the loop is `LinkAll` over every record, ranked by the distance out of the records. */
  lemma LinkPhaseAcyclic(run: Run)
    requires Acyclic(run.pending)
    ensures Ranked(run.pending, DistanceRank(run.pending))
    ensures var l := LinkAll(Links(run.pending, run.fs, []), Enumerate(run.pending.Keys), DistanceRank(run.pending));
      LinkPhase(run) == Finished(l.links.fs, run.log, l.links.linked, if l.err.Some? then R.Some(LinkFailed(l.err.value)) else R.None)
  {
    assert Leaving(run.pending) == run.pending;
    assert run.pending.Keys - run.pending.Keys == {};
    DistanceRanks(run.pending);
    LinkLoopAcyclic(Links(run.pending, run.fs, []), Enumerate(run.pending.Keys), DistanceRank(run.pending));
  }

  /**
   * `Scaffold(source, destination, ctx, options...)` on the source listing
   * `tree` and the destination file system `fs0`: options, then the
   * plugins' `Extend` calls, then the walk, then the deferred links; the
   * first error ends the run.
   */
  ghost function Scaffold(engine: Engine, tree: seq<ST.Entry>, source: Path, destination: Path, ctx: Value,
                          options: seq<Option>, fs0: Fs): Outcome
  {
    var so := Configured(source, destination, ctx, options);
    var ext := ExtendPhase(so);
    match ext.failed
    case Some((j, reason)) => Finished(fs0, ext.log, [], R.Some(ExtendFailed(j, reason)))
    case None =>
      var walked := WalkPhase(engine, tree, so, ext, ctx, fs0);
      if walked.err.Some? then Finished(walked.run.fs, walked.run.log, [], walked.err)
      else LinkPhase(walked.run)
  }

  /**
   * The first failing `Extend` aborts the run before anything is written:
   * the destination is untouched, no entry is materialized, and the trace
   * holds the `Extend` calls up to and including the failing one.
   */
  lemma ExtendFailureWritesNothing(engine: Engine, tree: seq<ST.Entry>, source: Path, destination: Path, ctx: Value,
                                   options: seq<Option>, fs0: Fs)
    requires ExtendPhase(Configured(source, destination, ctx, options)).failed.Some?
    ensures var o := Scaffold(engine, tree, source, destination, ctx, options, fs0);
      var j := ExtendPhase(Configured(source, destination, ctx, options)).failed.value.0;
      && o.Finished? && o.fs == fs0 && o.linked == []
      && o.err.Some? && o.err.value.ExtendFailed? && o.err.value.plugin == j
      && j < |Configured(source, destination, ctx, options).plugins|
      && o.log == ExtendCalls(0, j + 1)
  {
  }

  /**
   * Otherwise every plugin's `Extend` has run once, in registration order,
   * before the walk: the trace starts with exactly those calls, and the
   * walk reads the source and target roots the caller gave.
   */
  lemma ExtendBeforeWalk(engine: Engine, tree: seq<ST.Entry>, source: Path, destination: Path, ctx: Value,
                         options: seq<Option>, fs0: Fs)
    requires ExtendPhase(Configured(source, destination, ctx, options)).failed.None?
    ensures var so := Configured(source, destination, ctx, options);
      var ext := ExtendPhase(so);
      var w := WalkPhase(engine, tree, so, ext, ctx, fs0);
      && ExtendCalls(0, |so.plugins|) <= w.run.log
      && EnvOf(engine, so, ext).sourceRoot == source
      && so.config.source == source && so.config.target == destination
  {
    var so := Configured(source, destination, ctx, options);
    ApplyOptionsSpec(Defaults(source, destination, ctx), options);
    var ext := ExtendPhase(so);
    var w := WalkPhase(engine, tree, so, ext, ctx, fs0);
    assert ext.log == ExtendCalls(0, |so.plugins|);
  }

  /**
   * What the plugins' `Extend` calls leave reaches the walk: every function
   * they bind, other than "dir", is seen by every entry's templates, and
   * the exclusion patterns tested are exactly theirs.
   */
  lemma ExtensionsReachWalk(engine: Engine, so: ScaffoldOptions)
    requires ExtendPhase(so).failed.None?
    ensures var folded := ExtendedBy(so.plugins, so.config, 0, |so.plugins|);
      var env := EnvOf(engine, so, ExtendPhase(so));
      && folded.Some?
      && (forall n :: n != DirFunc ==> (n in EntryFuncs(env) <==> n in folded.value.funcs))
      && (forall n :: n != DirFunc && n in folded.value.funcs ==> EntryFuncs(env)[n] == folded.value.funcs[n])
      && env.exclude == folded.value.exclude
      && env.sourceRoot == so.config.source
  {
  }

  /**
   * The walk uses the context the caller passed to `Scaffold`: whatever
   * context the plugins' `Extend` calls leave in the configuration, the run
   * is the same. A `Value` cannot be changed in place, so a plugin that
   * updates a shared map or pointer context is outside this statement.
   */
  lemma ExtendedContextUnused(engine: Engine, tree: seq<ST.Entry>, so: ScaffoldOptions, ext: Extended, ctx: Value, fs0: Fs, other: Value)
    ensures WalkPhase(engine, tree, so, ext.(config := ext.config.(context := other)), ctx, fs0)
         == WalkPhase(engine, tree, so, ext, ctx, fs0)
  {
  }

  /**
   * After a successful walk whose link records chain acyclically, a run
   * without error leaves: every recorded path a symbolic link holding
   * exactly its stored text, each made after the recorded link its target
   * names, every other path as the walk left it, and every destination
   * the walk materialized present.
   */
  lemma LinksAfterWalk(run: Run)
    requires Acyclic(run.pending)
    ensures var o := LinkPhase(run);
      o.Finished? && o.err.None? ==>
        && (forall k :: k in run.pending ==> k in o.fs && o.fs[k] == SymbolicLink(run.pending[k]))
        && (forall k :: k in run.pending <==> k in o.linked)
        && Distinct(o.linked)
        && (forall i :: 0 <= i < |o.linked| ==> LinkedOk(run.pending, Links(map[], o.fs, o.linked), i))
        && (forall q :: q !in run.pending ==> (q in o.fs <==> q in run.fs) && (q in run.fs ==> o.fs[q] == run.fs[q]))
  {
    LinkPhaseAcyclic(run);
    LinkAllSpec(run.pending, run.fs, Enumerate(run.pending.Keys), DistanceRank(run.pending));
  }

  /**
   * A run that returns without error walked without error, found the link
   * records acyclic, and made every recorded link correctly and in order;
   * every destination the walk materialized exists at the end, every
   * recorded path holding its link.
   */
  lemma {:induction false} ScaffoldSucceeds(engine: Engine, tree: seq<ST.Entry>, source: Path, destination: Path, ctx: Value,
                                            options: seq<Option>, fs0: Fs)
    ensures var so := Configured(source, destination, ctx, options);
      var ext := ExtendPhase(so);
      var o := Scaffold(engine, tree, source, destination, ctx, options, fs0);
      o.Finished? && o.err.None? ==>
        var w := WalkPhase(engine, tree, so, ext, ctx, fs0);
        && ext.failed.None? && w.err.None? && Acyclic(w.run.pending)
        && o.log == w.run.log
        && (forall k :: k in w.run.pending ==> k in o.fs && o.fs[k] == SymbolicLink(w.run.pending[k]))
        && (forall i :: 0 <= i < |o.linked| ==> LinkedOk(w.run.pending, Links(map[], o.fs, o.linked), i))
        && (forall i :: 0 <= i < |o.log| && o.log[i].Materialized? ==> Exists(o.fs, o.log[i].dst))
  {
    var so := Configured(source, destination, ctx, options);
    var ext := ExtendPhase(so);
    var o := Scaffold(engine, tree, source, destination, ctx, options, fs0);
    if ext.failed.None? && o.Finished? && o.err.None? {
      var w := WalkPhase(engine, tree, so, ext, ctx, fs0);
      var env := EnvOf(engine, so, ext);
      var run0 := Run(fs0, map[], ext.log);
      DirLands(env, tree, so.config.source, so.config.target, ctx, run0);
      LinksAfterWalk(w.run);
      forall i | 0 <= i < |o.log| && o.log[i].Materialized? ensures Exists(o.fs, o.log[i].dst) {
        if i < |ext.log| {
          assert false;
        } else {
          assert o.log[i] == w.run.log[|run0.log|..][i - |ext.log|];
        }
      }
    }
  }

  /**
   * The run never ends only when the plugins and the walk succeed and no
   * rank orders the link records, that is, some chain is cyclic.  With such
   * records the run either never ends or stops at a link error the loop
   * hit before it reached a cyclic record.
   */
  lemma ScaffoldDiverges(engine: Engine, tree: seq<ST.Entry>, source: Path, destination: Path, ctx: Value,
                         options: seq<Option>, fs0: Fs)
    ensures var so := Configured(source, destination, ctx, options);
      var ext := ExtendPhase(so);
      var w := WalkPhase(engine, tree, so, ext, ctx, fs0);
      var o := Scaffold(engine, tree, source, destination, ctx, options, fs0);
      && (o.Diverges? ==> ext.failed.None? && w.err.None? && !(exists rank :: Ranked(w.run.pending, rank)))
      && (ext.failed.None? && w.err.None? && !(exists rank :: Ranked(w.run.pending, rank)) ==>
            o.Diverges? || (o.err.Some? && o.err.value.LinkFailed?))
  {
    var so := Configured(source, destination, ctx, options);
    var ext := ExtendPhase(so);
    var w := WalkPhase(engine, tree, so, ext, ctx, fs0);
    RankedIffChainsLeave(w.run.pending);
  }
}

=== FILE: scenarios.dfy ===
/**
 * One run worked through to the end: a template tree holding a regular
 * file and a link to it, both named by a template, scaffolded into an
 * empty destination.  The outcome is the one `TestScaffolder` expects
 * (scaffolder_test.go:23-26): `regular-test` with mode 0600 and content
 * "Hello, test!\n", and `symlink-test` a link that reads as that file.
 */
module Scenarios {
  import opened Paths
  import opened Templates
  import opened FileSystem
  import opened Options
  import opened Effects
  import opened Symlinks
  import opened Enumeration
  import opened Scaffolder
  import ST = SourceTree
  import R = Results

  const Source: Path := ["template"]
  const Destination: Path := ["out"]

  const RegularName: string := "regular-{{ .Name }}"
  const LinkName: string := "symlink-{{ .Name }}"
  const Greeting: string := "Hello, {{ .Name }}!\n"

  /** `0600`: owner read and write. */
  const OwnerRw: Mode := 384

  /** The context `{"Name": "test"}`. */
  const TestContext: Value := Record([("Name", Str("test"))])

  /** The three templates of the tree, rendered on `TestContext`; any other text renders to itself. */
  function Render(text: string, ctx: Value, funcs: FuncTable): Rendering {
    if text == RegularName then Rendered("regular-test", [])
    else if text == LinkName then Rendered("symlink-test", [])
    else if text == Greeting then Rendered("Hello, test!\n", [])
    else Rendered(text, [])
  }

  const TestEngine: Engine := Engine(Render, _ => true, (_, _) => false)

  /** The names render to `regular-test` and `symlink-test`, the content to the greeting for `test`. */
  lemma Renders(engine: Engine, funcs: FuncTable)
    requires engine == TestEngine
    ensures engine.render(RegularName, TestContext, funcs) == Rendered("regular-test", [])
    ensures engine.render(LinkName, TestContext, funcs) == Rendered("symlink-test", [])
    ensures engine.render(Greeting, TestContext, funcs) == Rendered("Hello, test!\n", [])
  {
  }

  /** A regular file, and a link whose target names that file through the same template. */
  const Tree: seq<ST.Entry> := [
    ST.Entry(RegularName, ST.Regular(OwnerRw, Greeting)),
    ST.Entry(LinkName, ST.Symlink(RegularName))
  ]

  const RegularDst: Path := ["out", "regular-test"]
  const LinkDst: Path := ["out", "symlink-test"]

  /** What the walk reads when no option is given and there is no plugin. */
  const TestEnv: Env := Env(TestEngine, [], map[DirFunc := DirNotImplemented], [], Source)

  const Written: Node := RegularFile(OwnerRw, "Hello, test!\n")

  /** The destination directory, created by the walk. */
  const Created: Fs := map[Destination := Directory(DirMode)]

  lemma NoPlugins()
    ensures var so := Configured(Source, Destination, TestContext, []);
      && ExtendPhase(so) == Extended(so.config, [], R.None)
      && EnvOf(TestEngine, so, ExtendPhase(so)) == TestEnv
      && so.config.source == Source && so.config.target == Destination
  {
  }

  /** No exclusion pattern is configured, so nothing is excluded. */
  lemma NothingExcluded(srcPath: Path)
    ensures MatchExcludes(TestEnv.engine, TestEnv.exclude, Rel(TestEnv.sourceRoot, srcPath)) == R.Ok(false)
  {
  }

  /** An entry whose name renders to a plain name, with no `dir` call and no exclusion, has one destination. */
  lemma DecidePlain(env: Env, srcPath: Path, name: string, dstDir: Path, ctx: Value, text: string)
    requires env.exclude == []
    requires env.engine.render(name, ctx, EntryFuncs(env)) == Rendered(text, [])
    requires IsSegment(text) && !HasTemplateSuffix(text)
    ensures Decide(env, srcPath, name, dstDir, ctx) == Single(dstDir + [text])
  {
    JoinTrimmed(dstDir, text);
  }

  /** A regular file with a plain rendered name and no plugin is written once, at that name. */
  lemma OneFile(env: Env, e: ST.Entry, srcDir: Path, dstDir: Path, ctx: Value, run: Run, text: string, content: string, dst: Path, fs: Fs)
    requires e.kind.Regular? && IsSegment(e.name)
    requires env.exclude == [] && env.plugins == []
    requires env.engine.render(e.name, ctx, EntryFuncs(env)) == Rendered(text, [])
    requires IsSegment(text) && !HasTemplateSuffix(text) && dst == dstDir + [text]
    requires env.engine.render(e.kind.content, ctx, EntryFuncs(env)) == Rendered(content, [])
    requires WriteFile(run.fs, dst, content, e.kind.mode) == R.Ok(fs)
    ensures ScaffoldOne(env, e, srcDir, dstDir, ctx, run)
         == Progress(Run(fs, run.pending, run.log + [Materialized(srcDir + [e.name], dst, ctx)]), R.None)
  {
    ResolveSegment(srcDir, e.name);
    DecidePlain(env, srcDir + [e.name], e.name, dstDir, ctx, text);
    assert ScaffoldOne(env, e, srcDir, dstDir, ctx, run) == ScaffoldEntry(env, e, srcDir + [e.name], dst, ctx, run);
  }

  /** A link with a plain rendered name and a relative rendered target is recorded once, at that name. */
  lemma OneLink(env: Env, e: ST.Entry, srcDir: Path, dstDir: Path, ctx: Value, run: Run, text: string, target: string, dst: Path)
    requires e.kind.Symlink? && IsSegment(e.name)
    requires env.exclude == []
    requires env.engine.render(e.name, ctx, EntryFuncs(env)) == Rendered(text, [])
    requires IsSegment(text) && !HasTemplateSuffix(text) && dst == dstDir + [text]
    requires env.engine.render(e.kind.target, ctx, EntryFuncs(env)) == Rendered(target, [])
    requires !IsAbs(target)
    ensures ScaffoldOne(env, e, srcDir, dstDir, ctx, run)
         == Progress(Run(run.fs, run.pending[dst := target], run.log + [Materialized(srcDir + [e.name], dst, ctx)]), R.None)
  {
    ResolveSegment(srcDir, e.name);
    DecidePlain(env, srcDir + [e.name], e.name, dstDir, ctx, text);
    assert ScaffoldOne(env, e, srcDir, dstDir, ctx, run) == ScaffoldEntry(env, e, srcDir + [e.name], dst, ctx, run);
  }

  /** Two entries, each placed without error, in order. */
  lemma TwoEntries(env: Env, e0: ST.Entry, e1: ST.Entry, srcDir: Path, dstDir: Path, ctx: Value, run: Run, mid: Run, after: Run)
    requires ScaffoldOne(env, e0, srcDir, dstDir, ctx, run) == Progress(mid, R.None)
    requires ScaffoldOne(env, e1, srcDir, dstDir, ctx, mid) == Progress(after, R.None)
    ensures ScaffoldEntries(env, [e0, e1], srcDir, dstDir, ctx, run) == Progress(after, R.None)
  {
    assert [e1][1..] == [];
    assert ScaffoldEntries(env, [e1], srcDir, dstDir, ctx, mid) == Progress(after, R.None);
    assert [e0, e1][1..] == [e1];
  }

  /** A single record whose target is another path: its chain leaves at once. */
  lemma SingleAcyclic(pending: Pending, p: Path)
    requires pending.Keys == {p} && TargetOf(pending, p) != p
    ensures Acyclic(pending)
  {
    assert Hop(pending, p, 1) == TargetOf(pending, p);
    assert ChainLeaves(pending, p);
  }

  /** A one-element set is listed as that element. */
  lemma SingleOrder<T(!new)>(s: set<T>, x: T)
    requires s == {x}
    ensures Enumerate(s) == [x]
  {
    var xs := Enumerate(s);
    assert |xs| == 1 && xs[0] in s;
  }

  /** The target of the one record is not recorded, so `applySymlinks` goes straight to making the link. */
  lemma SingleApply(s: Links, p: Path, rank: Path -> nat)
    requires s.pending.Keys == {p} && TargetOf(s.pending, p) != p && Ranked(s.pending, rank)
    ensures Apply(s, p, rank) == Relink(s, p, s.pending[p])
  {
    assert Apply(s, TargetOf(s.pending, p), rank) == LinkStep(s, R.None);
  }

  /**
   * One recorded link with non-empty text whose target is not recorded, in a directory that
   * exists, over nothing but a missing path or a file: the loop makes it
   * at once and stops.
   */
  lemma OneRecord(run: Run, p: Path, target: string)
    requires run.pending == map[p := target] && target != ""
    requires Resolve(Dir(p), target) != p
    requires p != [] && IsDir(run.fs, Dir(p))
    requires p !in run.fs || !run.fs[p].Directory?
    ensures LinkPhase(run) == Finished(run.fs[p := SymbolicLink(target)], run.log, [p], R.None)
  {
    var pending := run.pending;
    assert pending.Keys == {p};
    SingleAcyclic(pending, p);
    SingleOrder(pending.Keys, p);
    LinkPhaseAcyclic(run);
    OneLinkAll(Links(pending, run.fs, []), p, target, DistanceRank(pending));
  }

  /** The loop over the one record makes its link and stops. */
  lemma OneLinkAll(s: Links, p: Path, target: string, rank: Path -> nat)
    requires s.pending == map[p := target] && s.linked == [] && target != ""
    requires Resolve(Dir(p), target) != p && Ranked(s.pending, rank)
    requires p != [] && IsDir(s.fs, Dir(p))
    requires p !in s.fs || !s.fs[p].Directory?
    ensures LinkAll(s, [p], rank) == LinkStep(Links(map[], s.fs[p := SymbolicLink(target)], [p]), R.None)
  {
    assert s.pending.Keys == {p};
    SingleApply(s, p, rank);
    var r := Relink(s, p, target);
    assert r == LinkStep(Links(map[], s.fs[p := SymbolicLink(target)], [p]), R.None);
    assert LinkAll(s, [p], rank) == LinkAll(r.links, [], rank);
  }

  /**
   * A link entry whose target renders to the empty text: the record is
   * kept as "" (`StoredTarget`), and `os.Symlink("", p)` then fails, so the
   * run ends with "failed to apply symlink" and nothing linked.  Whatever
   * sat at `p` has already been removed.
   */
  lemma EmptyTextRecord(run: Run, p: Path)
    requires run.pending == map[p := ""] && p != []
    requires p !in run.fs || !(run.fs[p].Directory? && HasChild(run.fs, p))
    ensures LinkPhase(run) == Finished(run.fs - {p}, run.log, [], R.Some(LinkFailed(NotFound(p))))
  {
    var pending := run.pending;
    assert pending.Keys == {p};
    ResolveDots(Dir(p));
    SingleAcyclic(pending, p);
    SingleOrder(pending.Keys, p);
    LinkPhaseAcyclic(run);
    EmptyTextLinkAll(Links(pending, run.fs, []), p, DistanceRank(pending));
  }

  /** The loop over the one record with empty text stops at its failing link. */
  lemma EmptyTextLinkAll(s: Links, p: Path, rank: Path -> nat)
    requires s.pending == map[p := ""] && s.linked == [] && p != []
    requires Resolve(Dir(p), "") != p && Ranked(s.pending, rank)
    requires p !in s.fs || !(s.fs[p].Directory? && HasChild(s.fs, p))
    ensures LinkAll(s, [p], rank) == LinkStep(Links(map[], s.fs - {p}, []), R.Some(NotFound(p)))
  {
    assert s.pending.Keys == {p};
    SingleApply(s, p, rank);
    var r := Relink(s, p, "");
    assert Symlink(s.fs - {p}, "", p) == R.Err(NotFound(p));
    assert r == LinkStep(Links(map[], s.fs - {p}, []), R.Some(NotFound(p)));
  }

  /** One recorded link beside its target, in a directory that exists, over nothing. */
  lemma LinkBeside(run: Run, dir: Path, name: string, target: string)
    requires IsSegment(name) && IsSegment(target) && name != target
    requires run.pending == map[dir + [name] := target]
    requires IsDir(run.fs, dir) && dir + [name] !in run.fs
    ensures LinkPhase(run) == Finished(run.fs[dir + [name] := SymbolicLink(target)], run.log, [dir + [name]], R.None)
  {
    var p := dir + [name];
    assert Dir(p) == dir;
    ResolveSegment(dir, target);
    assert dir + [target] != p by {
      assert (dir + [target])[|dir|] == target;
    }
    OneRecord(run, p, target);
  }

  // The step lemmas below take the constants as parameters that equal
  // them, so that the solver does not evaluate the walk on constants
  // unboundedly.

  /** The file entry is written at `out/regular-test` with the rendered content. */
  lemma FileStep(env: Env, e: ST.Entry, srcDir: Path, dstDir: Path, ctx: Value, run: Run)
    requires env == TestEnv && e == Tree[0] && srcDir == Source && dstDir == Destination && ctx == TestContext
    requires IsDir(run.fs, Destination) && RegularDst !in run.fs
    ensures ScaffoldOne(env, e, srcDir, dstDir, ctx, run)
         == Progress(Run(run.fs[RegularDst := Written], run.pending, run.log + [Materialized(srcDir + [e.name], RegularDst, ctx)]), R.None)
  {
    assert Dir(RegularDst) == Destination && Destination + ["regular-test"] == RegularDst;
    Renders(env.engine, EntryFuncs(env));
    OneFile(env, e, srcDir, dstDir, ctx, run, "regular-test", "Hello, test!\n", RegularDst, run.fs[RegularDst := Written]);
  }

  /** The link entry is recorded at `out/symlink-test` with the rendered target. */
  lemma SymlinkStep(env: Env, e: ST.Entry, srcDir: Path, dstDir: Path, ctx: Value, run: Run)
    requires env == TestEnv && e == Tree[1] && srcDir == Source && dstDir == Destination && ctx == TestContext
    ensures ScaffoldOne(env, e, srcDir, dstDir, ctx, run)
         == Progress(Run(run.fs, run.pending[LinkDst := "regular-test"], run.log + [Materialized(srcDir + [e.name], LinkDst, ctx)]), R.None)
  {
    assert Destination + ["symlink-test"] == LinkDst;
    Renders(env.engine, EntryFuncs(env));
    OneLink(env, e, srcDir, dstDir, ctx, run, "symlink-test", "regular-test", LinkDst);
  }

  /** The walk creates the destination, writes the file and records the link. */
  lemma WalkSteps(engine: Engine, tree: seq<ST.Entry>, so: ScaffoldOptions, ext: Extended, ctx: Value, fs0: Fs)
    requires engine == TestEngine && tree == Tree && ctx == TestContext && fs0 == map[]
    requires so == Configured(Source, Destination, TestContext, []) && ext == ExtendPhase(so)
    ensures var w := WalkPhase(engine, tree, so, ext, ctx, fs0);
      && w.err.None?
      && w.run.fs == Created[RegularDst := Written]
      && w.run.pending == map[LinkDst := "regular-test"]
  {
    NoPlugins();
    var env := EnvOf(engine, so, ext);
    assert Mkdir(fs0, Destination) == R.Ok(Created);
    var start := Run(Created, map[], ext.log);
    var mid := Run(Created[RegularDst := Written], map[], ext.log + [Materialized(Source + [tree[0].name], RegularDst, ctx)]);
    var after := Run(mid.fs, mid.pending[LinkDst := "regular-test"], mid.log + [Materialized(Source + [tree[1].name], LinkDst, ctx)]);
    FileStep(env, tree[0], Source, Destination, ctx, start);
    SymlinkStep(env, tree[1], Source, Destination, ctx, mid);
    TwoEntries(env, tree[0], tree[1], Source, Destination, ctx, start, mid, after);
    assert tree == [tree[0], tree[1]];
  }

  /** The one recorded link targets the file, which is not recorded, so it is made at once. */
  lemma LinkPhaseOfTest(run: Run)
    requires run.fs == Created[RegularDst := Written] && run.pending == map[LinkDst := "regular-test"]
    ensures LinkPhase(run) == Finished(run.fs[LinkDst := SymbolicLink("regular-test")], run.log, [LinkDst], R.None)
  {
    assert Destination + ["symlink-test"] == LinkDst;
    assert IsDir(run.fs, Destination) && LinkDst !in run.fs;
    LinkBeside(run, Destination, "symlink-test", "regular-test");
  }

  /**
   * Two records in one directory, `a` naming `b` and `b` naming `t`: the
   * records are acyclic, `b` is made before `a` whatever the map order, and
   * reading `a` follows both links to whatever `t` names.
   */
  lemma ChainedLinks(run: Run, dir: Path, a: string, b: string, t: string, hops: nat)
    requires IsSegment(a) && IsSegment(b) && a != b
    requires run.pending == map[dir + [a] := b, dir + [b] := t]
    requires Resolve(dir, t) != dir + [a] && Resolve(dir, t) != dir + [b]
    requires hops >= 2
    ensures Acyclic(run.pending)
    ensures var o := LinkPhase(run);
      o.Finished? && (o.err.None? ==>
        && o.linked == [dir + [b], dir + [a]]
        && Deref(o.fs, dir + [a], hops) == Deref(o.fs, LinkTarget(dir + [b], t), hops - 2))
  {
    ChainAcyclic(run.pending, dir, a, b, t);
    LinksAfterWalk(run);
    var o := LinkPhase(run);
    if o.err.None? {
      ChainedOutcome(run.pending, o, dir, a, b, t, hops);
    }
  }

  /** What a finished link phase without error leaves for the two-record chain. */
  lemma ChainedOutcome(pending: Pending, o: Outcome, dir: Path, a: string, b: string, t: string, hops: nat)
    requires IsSegment(a) && IsSegment(b) && a != b
    requires pending == map[dir + [a] := b, dir + [b] := t]
    requires TargetOf(pending, dir + [a]) == dir + [b]
    requires hops >= 2
    requires o.Finished?
    requires forall k :: k in pending ==> k in o.fs && o.fs[k] == SymbolicLink(pending[k])
    requires forall k :: k in pending <==> k in o.linked
    requires Distinct(o.linked)
    requires forall i :: 0 <= i < |o.linked| ==> LinkedOk(pending, Links(map[], o.fs, o.linked), i)
    ensures o.linked == [dir + [b], dir + [a]]
    ensures Deref(o.fs, dir + [a], hops) == Deref(o.fs, LinkTarget(dir + [b], t), hops - 2)
  {
    var pa, pb := dir + [a], dir + [b];
    assert pa != pb by { assert pa[|dir|] == a && pb[|dir|] == b; }
    ChainOrder(pending, o, pa, pb);
    assert pa in pending && pb in pending;
    ChainReads(o.fs, dir, a, b, t, hops);
  }

  /** The two records of a chain that leaves them are acyclic, `a`'s target being `b`'s record. */
  lemma ChainAcyclic(pending: Pending, dir: Path, a: string, b: string, t: string)
    requires IsSegment(a) && IsSegment(b) && a != b
    requires pending == map[dir + [a] := b, dir + [b] := t]
    requires Resolve(dir, t) != dir + [a] && Resolve(dir, t) != dir + [b]
    ensures TargetOf(pending, dir + [a]) == dir + [b]
    ensures Acyclic(pending)
  {
    var pa, pb := dir + [a], dir + [b];
    ResolveSegment(dir, b);
    assert Dir(pa) == dir && Dir(pb) == dir;
    assert TargetOf(pending, pb) !in pending;
    var rank: Path -> nat := q => if q == pa then 1 else 0;
    assert Ranked(pending, rank);
    RankedIffChainsLeave(pending);
  }

  /** Reading `a` follows its link to `b` and `b`'s link on to what `t` names. */
  lemma ChainReads(fs: Fs, dir: Path, a: string, b: string, t: string, hops: nat)
    requires IsSegment(b)
    requires dir + [a] in fs && fs[dir + [a]] == SymbolicLink(b)
    requires dir + [b] in fs && fs[dir + [b]] == SymbolicLink(t)
    requires hops >= 2
    ensures Deref(fs, dir + [a], hops) == Deref(fs, LinkTarget(dir + [b], t), hops - 2)
  {
    ResolveSegment(dir, b);
    assert Dir(dir + [a]) == dir && Dir(dir + [b]) == dir;
  }

  /** The link order a two-record chain forces on a distinct list holding exactly its records. */
  lemma ChainOrder(pending: Pending, o: Outcome, pa: Path, pb: Path)
    requires pending.Keys == {pa, pb} && pa != pb && TargetOf(pending, pa) == pb
    requires o.Finished?
    requires forall k :: k in pending <==> k in o.linked
    requires Distinct(o.linked)
    requires forall i :: 0 <= i < |o.linked| ==> LinkedOk(pending, Links(map[], o.fs, o.linked), i)
    ensures o.linked == [pb, pa]
  {
    var xs := o.linked;
    assert pa in xs;
    var i :| 0 <= i < |xs| && xs[i] == pa;
    assert LinkedOk(pending, Links(map[], o.fs, xs), i);
    assert pb in xs[..i];
    var j :| 0 <= j < i && xs[j] == pb;
    assert xs[0] in pending;
    assert j == 0;
    assert xs[1] in pending;
    assert i == 1;
    DistinctWithin(xs, pending.Keys);
  }

  /** A list without repeats drawn from a set is no longer than the set. */
  lemma {:induction false} DistinctWithin<T>(xs: seq<T>, s: set<T>)
    requires Distinct(xs) && forall x :: x in xs ==> x in s
    ensures |xs| <= |s|
  {
    if |xs| > 0 {
      assert forall m :: 0 < m < |xs| ==> xs[m] != xs[0];
      DistinctWithin(xs[1..], s - {xs[0]});
    }
  }

  /** A link whose target is the name of a file beside it reads as that file, given one hop to spare. */
  lemma LinkReadsFile(fs: Fs, link: Path, name: string, file: Path, hops: nat)
    requires IsSegment(name) && link != [] && file == Dir(link) + [name]
    requires link in fs && fs[link] == SymbolicLink(name)
    requires file in fs && fs[file].RegularFile?
    requires hops >= 1
    ensures Deref(fs, link, hops) == R.Some(fs[file])
  {
    ResolveSegment(Dir(link), name);
  }

  /** What the destination holds at the end. */
  const Final: Fs := Created[RegularDst := Written][LinkDst := SymbolicLink("regular-test")]

  /** The run finishes without error and leaves `Final`. */
  lemma EndState(engine: Engine, tree: seq<ST.Entry>, source: Path, destination: Path, ctx: Value, options: seq<Option>, fs0: Fs)
    requires engine == TestEngine && tree == Tree && ctx == TestContext && fs0 == map[]
    requires source == Source && destination == Destination && options == []
    ensures var o := Scaffold(engine, tree, source, destination, ctx, options, fs0);
      o.Finished? && o.err.None? && o.fs == Final
  {
    NoPlugins();
    var so := Configured(source, destination, ctx, options);
    var w := WalkPhase(engine, tree, so, ExtendPhase(so), ctx, fs0);
    WalkSteps(engine, tree, so, ExtendPhase(so), ctx, fs0);
    LinkPhaseOfTest(w.run);
  }

  /** `Final` holds exactly the directory, the file and the link, and the link reads as the file. */
  lemma FinalContents(fs: Fs, hops: nat)
    requires fs == Final && hops >= 1
    ensures fs.Keys == {Destination, RegularDst, LinkDst}
    ensures fs[RegularDst] == Written && fs[LinkDst] == SymbolicLink("regular-test")
    ensures Deref(fs, LinkDst, hops) == R.Some(Written)
  {
    assert Dir(LinkDst) + ["regular-test"] == RegularDst;
    LinkReadsFile(fs, LinkDst, "regular-test", RegularDst, hops);
  }

  /**
   * With no options and an empty destination the run succeeds and leaves
   * exactly the destination directory, the rendered file with the source
   * mode, and a link that dereferences to the file.
   */
  lemma TestScaffolder(engine: Engine, tree: seq<ST.Entry>, source: Path, destination: Path, ctx: Value, options: seq<Option>, fs0: Fs)
    requires engine == TestEngine && tree == Tree && ctx == TestContext && fs0 == map[]
    requires source == Source && destination == Destination && options == []
    ensures var o := Scaffold(engine, tree, source, destination, ctx, options, fs0);
      && o.Finished? && o.err.None?
      && o.fs.Keys == {Destination, RegularDst, LinkDst}
      && o.fs[RegularDst] == Written
      && o.fs[LinkDst] == SymbolicLink("regular-test")
      && Deref(o.fs, LinkDst, MaxLinkHops) == R.Some(Written)
  {
    EndState(engine, tree, source, destination, ctx, options, fs0);
    var o := Scaffold(engine, tree, source, destination, ctx, options, fs0);
    FinalContents(o.fs, MaxLinkHops);
  }
}

=== FILE: source_tree.dfy ===
/**
 * The template tree the scaffolder reads: each directory lists its entries
 * in the order `os.ReadDir` returns them.
 */
module SourceTree {
  import FileSystem
  import Paths

  /** What `entry.Info()` reports about a source entry (scaffolder.go:202-257). */
  datatype Kind =
    | Directory(children: seq<Entry>)
    | Regular(mode: FileSystem.Mode, content: string)
    | Symlink(target: string)
    | Other

  /** One directory entry: its own name (`entry.Name()`) and what it is. */
  datatype Entry = Entry(name: string, kind: Kind)

  /** The number of entries in the tree rooted at `e`, itself included. */
  function Size(e: Entry): (n: nat)
    ensures n >= 1
  {
    match e.kind
    case Directory(children) => 1 + SizeAll(children)
    case _ => 1
  }

  /** The number of entries in the trees of a listing. */
  function SizeAll(entries: seq<Entry>): nat {
    if entries == [] then 0 else Size(entries[0]) + SizeAll(entries[1..])
  }

  /** Every name in the tree is a real directory-entry name, as `os.ReadDir` reports them. */
  predicate WellFormed(e: Entry) {
    && Paths.IsSegment(e.name)
    && match e.kind
       case Directory(children) => WellFormedAll(children)
       case _ => true
  }

  predicate WellFormedAll(entries: seq<Entry>) {
    entries == [] || (WellFormed(entries[0]) && WellFormedAll(entries[1..]))
  }
}

=== FILE: symlinks.dfy ===
/**
 * The deferred symbolic links of a scaffold run and `applySymlinks`
 * (scaffolder.go:133-137, 262-277).  During the walk a symlink entry only
 * records `destination path -> target text`; afterwards every recorded
 * link is created, each one after the recorded link its target names.
 *
 * The Go resolver recurses on the target before it deletes the record, so
 * on a chain of records that never leaves the map (a cycle, a self-link)
 * it recurses until the Go runtime aborts the process with a stack
 * overflow.  `Apply` therefore asks for a rank that decreases along every
 * recorded target, and `RankedIffChainsLeave` shows such a rank exists
 * exactly when every chain leaves the map.  `LinkLoop` is the Go loop over
 * all records: it resolves the records whose chain leaves with `Apply` and
 * diverges when the listing reaches one whose chain does not.
 */
module Symlinks {
  import opened Paths
  import opened FileSystem
  import opened Results
  import opened Enumeration

  /** `deferredSymlinks`: destination path to the stored (relative) target text. */
  type Pending = map<Path, string>

  /** The path a record points at: `filepath.Clean(filepath.Join(filepath.Dir(path), target))`. */
  function TargetOf(pending: Pending, p: Path): Path
    requires p in pending
  {
    Resolve(Dir(p), pending[p])
  }

  /** `rank` strictly decreases from a record to the record its target names. */
  ghost predicate Ranked(pending: Pending, rank: Path -> nat) {
    forall p :: p in pending && TargetOf(pending, p) in pending ==> rank(TargetOf(pending, p)) < rank(p)
  }

  /** `small` keeps some of the records of `big`, unchanged. */
  predicate SubMap(small: Pending, big: Pending) {
    forall k :: k in small ==> k in big && small[k] == big[k]
  }

  lemma RankedSubMap(small: Pending, big: Pending, rank: Path -> nat)
    requires SubMap(small, big) && Ranked(big, rank)
    ensures Ranked(small, rank)
  {
    forall p | p in small && TargetOf(small, p) in small
      ensures rank(TargetOf(small, p)) < rank(p)
    {
      assert TargetOf(small, p) == TargetOf(big, p);
    }
  }

  /** The resolver's state: the records left, the file system, and the links made so far, in order. */
  datatype Links = Links(pending: Pending, fs: Fs, linked: seq<Path>)

  /** A resolver step: the state reached and the error that stopped it, if any. */
  datatype LinkStep = LinkStep(links: Links, err: Option<FsError>)

  /**
   * The tail of `applySymlinks(p)` (scaffolder.go:271-276): the record of
   * `p` is deleted, whatever sits at `p` is removed (nothing there is
   * fine), and a link holding `target` is created at `p`.
   */
  function Relink(t: Links, p: Path, target: string): (r: LinkStep)
    ensures r.links.pending == t.pending - {p}
    ensures r.err.None? <==> target != "" && (p !in t.fs || !(t.fs[p].Directory? && HasChild(t.fs, p))) && p != [] && IsDir(t.fs, Dir(p))
    ensures r.err.None? ==> r.links == Links(t.pending - {p}, t.fs[p := SymbolicLink(target)], t.linked + [p])
    ensures r.err.Some? ==> r.links.linked == t.linked
  {
    var pending := t.pending - {p};
    var cleared := match Remove(t.fs, p)
      case Ok(fs) => Ok(fs)
      case Err(e) => if e.NotFound? then Ok(t.fs) else Err(e);
    match cleared
    case Err(e) => LinkStep(Links(pending, t.fs, t.linked), Some(e))
    case Ok(fs) =>
      assert fs == t.fs - {p} || (fs == t.fs && !Exists(t.fs, p));
      match Symlink(fs, target, p)
      case Err(e) => LinkStep(Links(pending, fs, t.linked), Some(e))
      case Ok(fs') =>
        assert fs' == t.fs[p := SymbolicLink(target)];
        LinkStep(Links(pending, fs', t.linked + [p]), None)
  }

  /**
   * `applySymlinks(p)`: nothing when `p` is not (or no longer) recorded;
   * otherwise the record its target names first, then the record of `p` is
   * deleted, whatever sits at `p` is removed (a missing file is fine), and
   * the link is created with the stored text.
   */
  function Apply(s: Links, p: Path, ghost rank: Path -> nat): (r: LinkStep)
    requires Ranked(s.pending, rank)
    ensures p !in s.pending ==> r == LinkStep(s, None)
    ensures SubMap(r.links.pending, s.pending)
    ensures r.err.None? ==> p !in r.links.pending
    ensures forall k :: k in s.pending && k !in r.links.pending ==> OnChain(s.pending, p, k)
    ensures forall k :: k in s.pending && k !in r.links.pending ==> rank(k) <= rank(p)
    decreases if p in s.pending then rank(p) + 1 else 0
  {
    if p !in s.pending then LinkStep(s, None)
    else
      var target := s.pending[p];
      var first := Apply(s, TargetOf(s.pending, p), rank);
      ChainExtends(s.pending, p);
      if first.err.Some? then first
      else Relink(first.links, p, target)
  }

  /** The chain from a record is the record followed by the chain from its target. */
  lemma ChainExtends(pending: Pending, p: Path)
    requires p in pending
    ensures OnChain(pending, p, p)
    ensures forall k :: OnChain(pending, TargetOf(pending, p), k) ==> OnChain(pending, p, k)
  {
    assert Hop(pending, p, 0) == p;
    forall k | OnChain(pending, TargetOf(pending, p), k) ensures OnChain(pending, p, k) {
      var n: nat :| Hop(pending, TargetOf(pending, p), n) == k;
      assert Hop(pending, p, n + 1) == k;
    }
  }

  /** `for dstPath := range s.deferredSymlinks`: `Apply` on each path of `order` until one fails. */
  function LinkAll(s: Links, order: seq<Path>, ghost rank: Path -> nat): (r: LinkStep)
    requires Ranked(s.pending, rank)
    ensures SubMap(r.links.pending, s.pending)
    ensures r.err.None? ==> forall i :: 0 <= i < |order| ==> order[i] !in r.links.pending
    decreases |order|
  {
    if order == [] then LinkStep(s, None)
    else
      var r := Apply(s, order[0], rank);
      if r.err.Some? then r
      else
        RankedSubMap(r.links.pending, s.pending, rank);
        var r' := LinkAll(r.links, order[1..], rank);
        assert forall i :: 1 <= i < |order| ==> order[i] == order[1..][i - 1];
        r'
  }

  // ---------------------------------------------------------------------
  // What the links made so far satisfy, relative to the records at the start.

  /** The `i`-th link made is a recorded path, holds the recorded text, and comes after the link its target names. */
  ghost predicate LinkedOk(pending0: Pending, s: Links, i: int)
    requires 0 <= i < |s.linked|
  {
    var k := s.linked[i];
    && k in pending0
    && k in s.fs && s.fs[k] == SymbolicLink(pending0[k])
    && (TargetOf(pending0, k) in pending0 ==> TargetOf(pending0, k) in s.linked[..i])
  }

  /**
   * Relative to the records `pending0` and the file system `fs0` at the
   * start: the records left are some of the first ones; every recorded path
   * is either still recorded or linked, exactly once; each link is
   * correct and in order; every path not yet linked is as it was.
   */
  ghost predicate Inv(pending0: Pending, fs0: Fs, s: Links) {
    && SubMap(s.pending, pending0)
    && Distinct(s.linked)
    && (forall k :: k in pending0 ==> (k !in s.pending <==> k in s.linked))
    && (forall i :: 0 <= i < |s.linked| ==> LinkedOk(pending0, s, i))
    && (forall q :: q !in s.linked ==> (q in s.fs <==> q in fs0) && (q in fs0 ==> s.fs[q] == fs0[q]))
  }

  lemma InvInit(pending0: Pending, fs0: Fs)
    ensures Inv(pending0, fs0, Links(pending0, fs0, []))
  {
  }

  /** Replacing the record of `p` by its link keeps `Inv` once the link its target names is made. */
  lemma RelinkKeepsInv(pending0: Pending, fs0: Fs, t: Links, p: Path)
    requires Inv(pending0, fs0, t) && p in t.pending
    requires TargetOf(pending0, p) in pending0 ==> TargetOf(pending0, p) !in t.pending
    ensures var r := Relink(t, p, t.pending[p]); r.err.None? ==> Inv(pending0, fs0, r.links)
  {
    LinkKeepsInv(pending0, fs0, t, p);
  }

  lemma LinkKeepsInv(pending0: Pending, fs0: Fs, t: Links, p: Path)
    requires Inv(pending0, fs0, t) && p in t.pending
    requires TargetOf(pending0, p) in pending0 ==> TargetOf(pending0, p) !in t.pending
    ensures Inv(pending0, fs0, Links(t.pending - {p}, t.fs[p := SymbolicLink(pending0[p])], t.linked + [p]))
  {
    var s' := Links(t.pending - {p}, t.fs[p := SymbolicLink(pending0[p])], t.linked + [p]);
    assert p in pending0 && p !in t.linked;
    DistinctSnoc(t.linked, p);
    LinkKeepsRecords(pending0, t, p, s');
    LinkedStaysOk(pending0, t, p, s');
    LinkKeepsOthers(fs0, t, p, SymbolicLink(pending0[p]), s');
  }

  lemma DistinctSnoc<T>(xs: seq<T>, x: T)
    requires Distinct(xs) && x !in xs
    ensures Distinct(xs + [x])
  {
    assert forall i :: 0 <= i < |xs| ==> (xs + [x])[i] == xs[i];
  }

  /** Moving `p` from the records to the links keeps "recorded or linked, not both". */
  lemma LinkKeepsRecords(pending0: Pending, t: Links, p: Path, s': Links)
    requires SubMap(t.pending, pending0) && p in t.pending
    requires forall k :: k in pending0 ==> (k !in t.pending <==> k in t.linked)
    requires s'.pending == t.pending - {p} && s'.linked == t.linked + [p]
    ensures SubMap(s'.pending, pending0)
    ensures forall k :: k in pending0 ==> (k !in s'.pending <==> k in s'.linked)
  {
  }

  /** Linking `p` changes nothing at any other path. */
  lemma LinkKeepsOthers(fs0: Fs, t: Links, p: Path, node: Node, s': Links)
    requires forall q :: q !in t.linked ==> (q in t.fs <==> q in fs0) && (q in fs0 ==> t.fs[q] == fs0[q])
    requires s'.fs == t.fs[p := node] && s'.linked == t.linked + [p]
    ensures forall q :: q !in s'.linked ==> (q in s'.fs <==> q in fs0) && (q in fs0 ==> s'.fs[q] == fs0[q])
  {
    assert forall q :: q !in s'.linked ==> q !in t.linked && q != p;
  }

  /** Appending the link of `p`, made after the link its target names, keeps every link in order. */
  lemma LinkedStaysOk(pending0: Pending, t: Links, p: Path, s': Links)
    requires forall i :: 0 <= i < |t.linked| ==> LinkedOk(pending0, t, i)
    requires p in pending0 && p !in t.linked
    requires TargetOf(pending0, p) in pending0 ==> TargetOf(pending0, p) in t.linked
    requires s'.fs == t.fs[p := SymbolicLink(pending0[p])] && s'.linked == t.linked + [p]
    ensures forall i :: 0 <= i < |s'.linked| ==> LinkedOk(pending0, s', i)
  {
    forall i | 0 <= i < |s'.linked| ensures LinkedOk(pending0, s', i) {
      if i < |t.linked| {
        assert LinkedOk(pending0, t, i);
        assert s'.linked[i] == t.linked[i] != p;
        assert s'.linked[..i] == t.linked[..i];
      } else {
        assert s'.linked[..i] == t.linked;
      }
    }
  }

  lemma {:induction false} ApplyKeepsInv(pending0: Pending, fs0: Fs, s: Links, p: Path, rank: Path -> nat)
    requires Ranked(s.pending, rank) && Inv(pending0, fs0, s)
    ensures var r := Apply(s, p, rank); r.err.None? ==> Inv(pending0, fs0, r.links)
    decreases if p in s.pending then rank(p) + 1 else 0
  {
    if p in s.pending {
      var tp := TargetOf(s.pending, p);
      var first := Apply(s, tp, rank);
      ApplyKeepsInv(pending0, fs0, s, tp, rank);
      if first.err.None? {
        assert p in first.links.pending;
        assert TargetOf(pending0, p) == tp;
        RelinkKeepsInv(pending0, fs0, first.links, p);
      }
    }
  }

  lemma {:induction false} LinkAllKeepsInv(pending0: Pending, fs0: Fs, s: Links, order: seq<Path>, rank: Path -> nat)
    requires Ranked(s.pending, rank) && Inv(pending0, fs0, s)
    ensures var r := LinkAll(s, order, rank); r.err.None? ==> Inv(pending0, fs0, r.links)
    decreases |order|
  {
    if order != [] {
      var r := Apply(s, order[0], rank);
      ApplyKeepsInv(pending0, fs0, s, order[0], rank);
      if r.err.None? {
        RankedSubMap(r.links.pending, s.pending, rank);
        LinkAllKeepsInv(pending0, fs0, r.links, order[1..], rank);
      }
    }
  }

  /**
   * The deferred-link loop, run over any listing of the records: on
   * success no record is left, every recorded path is a symbolic link
   * holding exactly its stored text, each link is made after the recorded
   * link its target names, and nothing else in the file system changes.
   */
  lemma LinkAllSpec(pending0: Pending, fs0: Fs, order: seq<Path>, rank: Path -> nat)
    requires Ranked(pending0, rank)
    requires forall k :: k in pending0 ==> k in order
    ensures var r := LinkAll(Links(pending0, fs0, []), order, rank);
      r.err.None? ==>
        && r.links.pending == map[]
        && (forall k :: k in pending0 ==> k in r.links.fs && r.links.fs[k] == SymbolicLink(pending0[k]))
        && (forall i :: 0 <= i < |r.links.linked| ==> LinkedOk(pending0, r.links, i))
        && (forall k :: k in pending0 <==> k in r.links.linked)
        && Distinct(r.links.linked)
        && (forall q :: q !in pending0 ==> (q in r.links.fs <==> q in fs0) && (q in fs0 ==> r.links.fs[q] == fs0[q]))
  {
    var s0 := Links(pending0, fs0, []);
    InvInit(pending0, fs0);
    LinkAllKeepsInv(pending0, fs0, s0, order, rank);
    var r := LinkAll(s0, order, rank);
    if r.err.None? {
      assert forall k :: k in r.links.pending ==> k in pending0 && k in order;
      assert r.links.pending.Keys == {};
      forall k | k in pending0 ensures k in r.links.fs && r.links.fs[k] == SymbolicLink(pending0[k]) {
        var i :| 0 <= i < |r.links.linked| && r.links.linked[i] == k;
        assert LinkedOk(pending0, r.links, i);
      }
      forall k | k in r.links.linked ensures k in pending0 {
        var i :| 0 <= i < |r.links.linked| && r.links.linked[i] == k;
        assert LinkedOk(pending0, r.links, i);
      }
    }
  }

  // ---------------------------------------------------------------------
  // When a rank exists: exactly when every chain of records leaves the map.

  /** Where `n` steps of following records from `p` end; a path that is not recorded is a fixed point. */
  ghost function Hop(pending: Pending, p: Path, n: nat): Path
    decreases n
  {
    if n == 0 || p !in pending then p else Hop(pending, TargetOf(pending, p), n - 1)
  }

  /** `k` is reached from `p` by following records some number of times. */
  ghost predicate OnChain(pending: Pending, p: Path, k: Path) {
    exists n: nat :: Hop(pending, p, n) == k
  }

  /** Following records from `p` reaches a path that is not recorded, where the Go recursion stops. */
  ghost predicate ChainLeaves(pending: Pending, p: Path) {
    exists n: nat :: Hop(pending, p, n) !in pending
  }

  lemma {:induction false} RankedChainLeaves(pending: Pending, rank: Path -> nat, p: Path)
    requires Ranked(pending, rank)
    ensures ChainLeaves(pending, p)
    decreases rank(p)
  {
    if p !in pending {
      assert Hop(pending, p, 0) !in pending;
    } else {
      var t := TargetOf(pending, p);
      if t !in pending {
        assert Hop(pending, p, 1) == Hop(pending, t, 0);
      } else {
        RankedChainLeaves(pending, rank, t);
        var n: nat :| Hop(pending, t, n) !in pending;
        assert Hop(pending, p, n + 1) == Hop(pending, t, n);
      }
    }
  }

  /** The first step in `j..n` at which the chain from `p` has left the map. */
  ghost function FirstOut(pending: Pending, p: Path, j: nat, n: nat): (k: nat)
    requires j <= n && Hop(pending, p, n) !in pending
    ensures j <= k <= n && Hop(pending, p, k) !in pending
    ensures forall m: nat :: j <= m < k ==> Hop(pending, p, m) in pending
    decreases n - j
  {
    if Hop(pending, p, j) !in pending then j else FirstOut(pending, p, j + 1, n)
  }

  /** The number of steps from `p` to the first path that is not recorded. */
  ghost function Distance(pending: Pending, p: Path): (d: nat)
    ensures ChainLeaves(pending, p) ==> Hop(pending, p, d) !in pending
    ensures forall j: nat :: j < d ==> Hop(pending, p, j) in pending
  {
    if ChainLeaves(pending, p) then
      var n: nat :| Hop(pending, p, n) !in pending;
      FirstOut(pending, p, 0, n)
    else 0
  }

  /** The distance to the first unrecorded path, as a rank. */
  ghost function DistanceRank(pending: Pending): Path -> nat {
    p => Distance(pending, p)
  }

  /** From a record whose chain leaves, the distance drops by one step to its recorded target. */
  lemma DistanceStep(pending: Pending, p: Path)
    requires p in pending && ChainLeaves(pending, p) && TargetOf(pending, p) in pending
    ensures Distance(pending, TargetOf(pending, p)) < Distance(pending, p)
  {
    var t := TargetOf(pending, p);
    var d := Distance(pending, p);
    assert Hop(pending, p, 0) in pending;
    assert d >= 1;
    assert Hop(pending, p, d) == Hop(pending, t, d - 1);
    assert Hop(pending, t, d - 1) !in pending;
  }

  lemma {:induction false} DistanceRanks(pending: Pending)
    requires forall p :: p in pending ==> ChainLeaves(pending, p)
    ensures Ranked(pending, DistanceRank(pending))
  {
    forall p | p in pending && TargetOf(pending, p) in pending
      ensures Distance(pending, TargetOf(pending, p)) < Distance(pending, p)
    {
      DistanceStep(pending, p);
    }
  }

  /** A decreasing rank exists exactly when every chain of records leaves the map. */
  lemma RankedIffChainsLeave(pending: Pending)
    ensures (exists rank :: Ranked(pending, rank)) <==> forall p :: p in pending ==> ChainLeaves(pending, p)
  {
    if exists rank :: Ranked(pending, rank) {
      var rank :| Ranked(pending, rank);
      forall p | p in pending ensures ChainLeaves(pending, p) {
        RankedChainLeaves(pending, rank, p);
      }
    }
    if forall p :: p in pending ==> ChainLeaves(pending, p) {
      DistanceRanks(pending);
    }
  }

  /** A link to itself, `a -> a`, is a chain that never leaves: the Go resolver recurses on it forever. */
  lemma SelfLinkNeverLeaves(dir: Path, name: string)
    requires IsClean(dir) && IsSegment(name)
    ensures !ChainLeaves(map[dir + [name] := name], dir + [name])
    ensures forall rank :: !Ranked(map[dir + [name] := name], rank)
  {
    var p := dir + [name];
    var pending := map[p := name];
    assert Dir(p) == dir;
    ResolveSegment(dir, name);
    assert TargetOf(pending, p) == p;
    forall n: nat ensures Hop(pending, p, n) == p {
      SelfHop(pending, p, n);
    }
  }

  lemma {:induction false} SelfHop(pending: Pending, p: Path, n: nat)
    requires p in pending && TargetOf(pending, p) == p
    ensures Hop(pending, p, n) == p
    decreases n
  {
    if n > 0 {
      SelfHop(pending, p, n - 1);
    }
  }

  // ---------------------------------------------------------------------
  // The Go loop over every record, cycles included

  /** The records whose chain leaves the map: the ones the Go resolver finishes. */
  ghost function Leaving(pending: Pending): (good: Pending)
    ensures SubMap(good, pending)
    ensures forall k :: k in good <==> k in pending && ChainLeaves(pending, k)
  {
    map k | k in pending && ChainLeaves(pending, k) :: pending[k]
  }

  /**
   * The split is exact: the recorded target of a record whose chain leaves
   * is again such a record, and the target of a record whose chain does not
   * leave is recorded and does not leave either.  So resolving a leaving
   * record reads only leaving records, and the others never change.
   */
  lemma LeavingClosed(pending: Pending, p: Path)
    requires p in pending
    ensures ChainLeaves(pending, p) && TargetOf(pending, p) in pending ==> ChainLeaves(pending, TargetOf(pending, p))
    ensures !ChainLeaves(pending, p) ==> TargetOf(pending, p) in pending && !ChainLeaves(pending, TargetOf(pending, p))
  {
    var t := TargetOf(pending, p);
    if ChainLeaves(pending, p) && t in pending {
      var n: nat :| Hop(pending, p, n) !in pending;
      assert n >= 1 by { assert Hop(pending, p, 0) == p; }
      assert Hop(pending, t, n - 1) == Hop(pending, p, n);
    }
    if !ChainLeaves(pending, p) {
      assert Hop(pending, p, 1) == Hop(pending, t, 0);
      if ChainLeaves(pending, t) {
        LeavesFromTarget(pending, p);
      }
    }
  }

  /** A record whose target's chain leaves has a chain that leaves, one step longer. */
  lemma LeavesFromTarget(pending: Pending, p: Path)
    requires p in pending && ChainLeaves(pending, TargetOf(pending, p))
    ensures ChainLeaves(pending, p)
  {
    var t := TargetOf(pending, p);
    var n: nat :| Hop(pending, t, n) !in pending;
    assert Hop(pending, p, n + 1) == Hop(pending, t, n);
  }

  /** The distance ranks the leaving records. */
  lemma LeavingRanked(pending: Pending)
    ensures Ranked(Leaving(pending), DistanceRank(pending))
  {
    var good := Leaving(pending);
    forall p | p in good && TargetOf(good, p) in good
      ensures Distance(pending, TargetOf(good, p)) < Distance(pending, p)
    {
      assert TargetOf(good, p) == TargetOf(pending, p);
      DistanceStep(pending, p);
    }
  }

  /** How the Go loop ends: the state reached, the error that stopped it, and whether it recursed without end. */
  datatype LinkRun = LinkRun(links: Links, err: Option<FsError>, diverged: bool)

  /**
   * `for dstPath := range s.deferredSymlinks { s.applySymlinks(dstPath) }`
   * over the listing `order`, with the records split into the leaving ones
   * (`s.pending`, resolved by `Apply`) and the paths `cyclic` of the rest.
   * Reaching a cyclic record recurses without end; the first error stops
   * the loop.
   */
  function LinkLoop(s: Links, cyclic: set<Path>, order: seq<Path>, ghost rank: Path -> nat): (r: LinkRun)
    requires Ranked(s.pending, rank)
    ensures r.diverged ==> r.err.None? && exists i :: 0 <= i < |order| && order[i] in cyclic
    ensures (exists i :: 0 <= i < |order| && order[i] in cyclic) ==> r.diverged || r.err.Some?
    ensures SubMap(r.links.pending, s.pending)
    decreases |order|
  {
    if order == [] then LinkRun(s, None, false)
    else if order[0] in cyclic then LinkRun(s, None, true)
    else
      var r := Apply(s, order[0], rank);
      if r.err.Some? then LinkRun(r.links, r.err, false)
      else
        RankedSubMap(r.links.pending, s.pending, rank);
        var r' := LinkLoop(r.links, cyclic, order[1..], rank);
        assert forall i :: 1 <= i < |order| ==> order[i] == order[1..][i - 1];
        assert (exists i :: 0 <= i < |order| && order[i] in cyclic) ==> exists i :: 0 <= i < |order[1..]| && order[1..][i] in cyclic;
        r'
  }

  /** With no cyclic record the Go loop is `LinkAll`. */
  lemma {:induction false} LinkLoopAcyclic(s: Links, order: seq<Path>, rank: Path -> nat)
    requires Ranked(s.pending, rank)
    ensures var r := LinkLoop(s, {}, order, rank);
      !r.diverged && LinkStep(r.links, r.err) == LinkAll(s, order, rank)
    decreases |order|
  {
    if order != [] {
      var r := Apply(s, order[0], rank);
      if r.err.None? {
        RankedSubMap(r.links.pending, s.pending, rank);
        LinkLoopAcyclic(r.links, order[1..], rank);
      }
    }
  }
}

=== FILE: templates.dfy ===
/**
 * The boundary to Go's `text/template` and `regexp` packages.  Their
 * internals are not modelled: an `Engine` value carries the rendering and
 * matching functions, and every property of the scaffolder is proved for
 * every engine.
 */
module Templates {
  import opened Results

  /** The context a template is rendered against; the scaffolder never looks inside. */
  datatype Value =
    | Null
    | Str(s: string)
    | Num(n: int)
    | Bool(b: bool)
    | List(items: seq<Value>)
    | Record(fields: seq<(string, Value)>)

  /**
   * A callable in the template function table: a host function, the stub
   * `Scaffold` installs for "dir" (it panics), or the per-entry "dir"
   * function that records its calls (scaffolder.go:110, 167-170).
   */
  datatype Func = Host(id: nat) | DirNotImplemented | DirRecorder

  type FuncTable = map<string, Func>

  /** The name of the fan-out function. */
  const DirFunc: string := "dir"

  /** One call `dir name ctx` made while a template ran. */
  datatype DirCall = DirCall(name: string, ctx: Value)

  /**
   * The outcome of `evaluate` (scaffolder.go:279-290): the rendered text
   * and the calls the template made to the function bound to "dir", in
   * the order it made them; or a parse or execution failure.
   */
  datatype Rendering = Rendered(text: string, dirCalls: seq<DirCall>) | RenderFailed

  /**
   * `render(text, ctx, funcs)` stands for parsing `text` as a template with
   * `funcs` and executing it on `ctx`; `validPattern` for `regexp.Compile`
   * succeeding; `matches(pattern, s)` for the compiled pattern matching
   * somewhere in `s`.
   */
  datatype Engine = Engine(
    render: (string, Value, FuncTable) -> Rendering,
    validPattern: string -> bool,
    matches: (string, string) -> bool)

  /**
   * The exclusion test of scaffolder.go:158-164: the patterns are tried in
   * order on the source-relative path; an invalid pattern reached before
   * any match is an error, and the first match excludes the entry.
   */
  function MatchExcludes(engine: Engine, patterns: seq<string>, rel: string): (r: Result<bool, string>)
    ensures r.Err? ==> r.error in patterns && !engine.validPattern(r.error)
    ensures r == Ok(true) ==> exists i :: 0 <= i < |patterns| && engine.matches(patterns[i], rel)
    decreases |patterns|
  {
    if patterns == [] then Ok(false)
    else if !engine.validPattern(patterns[0]) then Err(patterns[0])
    else if engine.matches(patterns[0], rel) then Ok(true)
    else
      var r := MatchExcludes(engine, patterns[1..], rel);
      assert r == Ok(true) ==> exists i :: 1 <= i < |patterns| && engine.matches(patterns[i], rel) by {
        if r == Ok(true) {
          var i :| 0 <= i < |patterns[1..]| && engine.matches(patterns[1..][i], rel);
          assert patterns[i + 1] == patterns[1..][i];
        }
      }
      r
  }

  /** The patterns before index `k` are all valid and none of them matches `rel`. */
  ghost predicate PassesBefore(engine: Engine, patterns: seq<string>, rel: string, k: int)
    requires 0 <= k <= |patterns|
  {
    forall j :: 0 <= j < k ==> engine.validPattern(patterns[j]) && !engine.matches(patterns[j], rel)
  }

  /**
   * Exclusion decided pattern by pattern: the entry is excluded exactly
   * when some valid pattern matches before any invalid pattern is reached;
   * an error names the first invalid pattern reached; otherwise every
   * pattern is valid and none matches.
   */
  lemma {:induction false} MatchExcludesSpec(engine: Engine, patterns: seq<string>, rel: string)
    ensures MatchExcludes(engine, patterns, rel) == Ok(true) <==>
      exists i :: 0 <= i < |patterns| && PassesBefore(engine, patterns, rel, i)
        && engine.validPattern(patterns[i]) && engine.matches(patterns[i], rel)
    ensures MatchExcludes(engine, patterns, rel).Err? <==>
      exists i :: 0 <= i < |patterns| && PassesBefore(engine, patterns, rel, i)
        && !engine.validPattern(patterns[i]) && MatchExcludes(engine, patterns, rel) == Err(patterns[i])
    ensures MatchExcludes(engine, patterns, rel) == Ok(false) <==> PassesBefore(engine, patterns, rel, |patterns|)
    decreases |patterns|
  {
    var r := MatchExcludes(engine, patterns, rel);
    if patterns != [] {
      var p := patterns[0];
      var rest := patterns[1..];
      MatchExcludesSpec(engine, rest, rel);
      forall k | 0 <= k < |patterns|
        ensures PassesBefore(engine, patterns, rel, k + 1) <==>
          engine.validPattern(p) && !engine.matches(p, rel) && PassesBefore(engine, rest, rel, k)
      {
        PassesBeforeCons(engine, patterns, rel, k);
      }
      if engine.validPattern(p) && !engine.matches(p, rel) {
        if r == Ok(true) {
          var i :| 0 <= i < |rest| && PassesBefore(engine, rest, rel, i)
            && engine.validPattern(rest[i]) && engine.matches(rest[i], rel);
          assert PassesBefore(engine, patterns, rel, i + 1);
          assert patterns[i + 1] == rest[i];
        }
        if exists i :: 0 <= i < |patterns| && PassesBefore(engine, patterns, rel, i)
            && engine.validPattern(patterns[i]) && engine.matches(patterns[i], rel) {
          var i :| 0 <= i < |patterns| && PassesBefore(engine, patterns, rel, i)
            && engine.validPattern(patterns[i]) && engine.matches(patterns[i], rel);
          assert i > 0;
          assert PassesBefore(engine, rest, rel, i - 1);
          assert patterns[i] == rest[i - 1];
        }
        if r.Err? {
          var i :| 0 <= i < |rest| && PassesBefore(engine, rest, rel, i)
            && !engine.validPattern(rest[i]) && r == Err(rest[i]);
          assert PassesBefore(engine, patterns, rel, i + 1);
          assert patterns[i + 1] == rest[i];
        }
        if exists i :: 0 <= i < |patterns| && PassesBefore(engine, patterns, rel, i)
            && !engine.validPattern(patterns[i]) && r == Err(patterns[i]) {
          var i :| 0 <= i < |patterns| && PassesBefore(engine, patterns, rel, i)
            && !engine.validPattern(patterns[i]) && r == Err(patterns[i]);
          assert i > 0;
          assert PassesBefore(engine, rest, rel, i - 1);
          assert patterns[i] == rest[i - 1];
        }
        assert PassesBefore(engine, patterns, rel, |patterns|) <==> PassesBefore(engine, rest, rel, |rest|);
      } else {
        assert !PassesBefore(engine, patterns, rel, |patterns|);
        assert PassesBefore(engine, patterns, rel, 0);
      }
    }
  }

  /** Passing the first `k + 1` patterns is passing the first one, then the first `k` of the rest. */
  lemma PassesBeforeCons(engine: Engine, patterns: seq<string>, rel: string, k: nat)
    requires k < |patterns|
    ensures PassesBefore(engine, patterns, rel, k + 1) <==>
      engine.validPattern(patterns[0]) && !engine.matches(patterns[0], rel) && PassesBefore(engine, patterns[1..], rel, k)
  {
    var rest := patterns[1..];
    if PassesBefore(engine, patterns, rel, k + 1) {
      forall j | 0 <= j < k ensures engine.validPattern(rest[j]) && !engine.matches(rest[j], rel) {
        assert rest[j] == patterns[j + 1];
      }
    }
    if engine.validPattern(patterns[0]) && !engine.matches(patterns[0], rel) && PassesBefore(engine, rest, rel, k) {
      forall j | 0 <= j < k + 1 ensures engine.validPattern(patterns[j]) && !engine.matches(patterns[j], rel) {
        if j > 0 { assert patterns[j] == rest[j - 1]; }
      }
    }
  }

  /** With every pattern valid, an entry is excluded iff some pattern matches it. */
  lemma MatchExcludesIffSomeMatch(engine: Engine, patterns: seq<string>, rel: string)
    requires forall i :: 0 <= i < |patterns| ==> engine.validPattern(patterns[i])
    ensures MatchExcludes(engine, patterns, rel).Ok?
    ensures MatchExcludes(engine, patterns, rel).value <==> exists i :: 0 <= i < |patterns| && engine.matches(patterns[i], rel)
  {
    MatchExcludesSpec(engine, patterns, rel);
    if exists i :: 0 <= i < |patterns| && engine.matches(patterns[i], rel) {
      var i :| 0 <= i < |patterns| && engine.matches(patterns[i], rel);
      FirstMatch(engine, patterns, rel, i);
    }
  }

  lemma {:induction false} FirstMatch(engine: Engine, patterns: seq<string>, rel: string, i: int)
    requires forall j :: 0 <= j < |patterns| ==> engine.validPattern(patterns[j])
    requires 0 <= i < |patterns| && engine.matches(patterns[i], rel)
    ensures exists k :: 0 <= k <= i && PassesBefore(engine, patterns, rel, k) && engine.matches(patterns[k], rel)
    decreases i
  {
    if PassesBefore(engine, patterns, rel, i) {
    } else {
      var j :| 0 <= j < i && !(engine.validPattern(patterns[j]) && !engine.matches(patterns[j], rel));
      FirstMatch(engine, patterns, rel, j);
    }
  }

  /** The first invalid pattern reached, before any match, is the error. */
  lemma {:induction false} FirstInvalid(engine: Engine, patterns: seq<string>, rel: string, i: int)
    requires 0 <= i < |patterns| && PassesBefore(engine, patterns, rel, i)
    requires !engine.validPattern(patterns[i])
    ensures MatchExcludes(engine, patterns, rel) == Err(patterns[i])
    decreases i
  {
    if i > 0 {
      var rest := patterns[1..];
      assert PassesBefore(engine, rest, rel, i - 1) by {
        forall j | 0 <= j < i - 1 ensures engine.validPattern(rest[j]) && !engine.matches(rest[j], rel) {
          assert rest[j] == patterns[j + 1];
        }
      }
      assert rest[i - 1] == patterns[i];
      FirstInvalid(engine, rest, rel, i - 1);
    }
  }
}

=== FILE: walk.dfy ===
/**
 * `WalkDir` (walkdir.go:10-46): a depth-first walk that calls a callback
 * on a directory before its children, prunes a directory whose callback
 * returns `ErrSkip`, and stops at the first other error.
 */
module Walk {
  import opened Paths
  import opened Results

  /** The tree under the walked directory, children in directory-listing order. */
  datatype Tree = Dir(name: string, children: seq<Tree>) | Leaf(name: string)

  /**
   * The errors the walk sees: `ErrSkip` (or any error wrapping it), an
   * error of the callback, or `os.ReadDir` failing on a root that is not a
   * directory.
   */
  datatype Error = ErrSkip | CallbackError(reason: string) | ReadDirError(path: Path)

  /** The callback: given the path and the entry, nil or an error. */
  type Callback = (Path, Tree) -> Option<Error>

  /** The callback calls made, in order, and the error `WalkDir` returns. */
  datatype Walked = Walked(visited: seq<Path>, err: Option<Error>)

  /** A child's path, `filepath.Join(dir, entry.Name())`. */
  function ChildPath(dir: Path, child: Tree): Path {
    Resolve(dir, child.name)
  }

  /** `errors.Is(err, ErrSkip)` on a possibly nil error. */
  predicate IsSkip(e: Option<Error>) {
    e == Some(ErrSkip)
  }

  /** A callback result that stops the walk: an error other than `ErrSkip`. */
  predicate Fails(e: Option<Error>) {
    e.Some? && !IsSkip(e)
  }

  /** None of the first `n` calls along the paths `ps`, given the entries `es`, fails. */
  predicate PassesFirst(fn: Callback, ps: seq<Path>, es: seq<Tree>, n: nat)
    requires n <= |ps| && n <= |es|
  {
    forall i :: 0 <= i < n ==> !Fails(fn(ps[i], es[i]))
  }

  // ---------------------------------------------------------------------
  // Reference definitions

  /** Every path of the tree, each directory before its children. */
  function PreOrder(t: Tree, path: Path): (ps: seq<Path>)
    ensures |ps| >= 1 && ps[0] == path
    decreases t, 1
  {
    match t
    case Leaf(_) => [path]
    case Dir(_, children) => [path] + PreOrderAll(children, path)
  }

  function PreOrderAll(children: seq<Tree>, dir: Path): seq<Path>
    decreases children, 0
  {
    if children == [] then []
    else PreOrder(children[0], ChildPath(dir, children[0])) + PreOrderAll(children[1..], dir)
  }

  /**
   * The paths the callback sees when no error stops the walk: a directory,
   * then, unless its callback skips it, its children's walks in order.
   * Leaves are called once whatever they return.
   */
  function Pruned(t: Tree, path: Path, fn: Callback): seq<Path>
    decreases t, 1
  {
    match t
    case Leaf(_) => [path]
    case Dir(_, children) =>
      if IsSkip(fn(path, t)) then [path] else [path] + PrunedAll(children, path, fn)
  }

  function PrunedAll(children: seq<Tree>, dir: Path, fn: Callback): seq<Path>
    decreases children, 0
  {
    if children == [] then []
    else Pruned(children[0], ChildPath(dir, children[0]), fn) + PrunedAll(children[1..], dir, fn)
  }

  /** The entries the callback is given along `Pruned`: the `i`-th is the entry found at the `i`-th path. */
  function PrunedEntries(t: Tree, path: Path, fn: Callback): (es: seq<Tree>)
    ensures |es| == |Pruned(t, path, fn)| && es[0] == t
    decreases t, 1
  {
    match t
    case Leaf(_) => [t]
    case Dir(_, children) =>
      if IsSkip(fn(path, t)) then [t] else [t] + PrunedEntriesAll(children, path, fn)
  }

  function PrunedEntriesAll(children: seq<Tree>, dir: Path, fn: Callback): (es: seq<Tree>)
    ensures |es| == |PrunedAll(children, dir, fn)|
    decreases children, 0
  {
    if children == [] then []
    else PrunedEntries(children[0], ChildPath(dir, children[0]), fn) + PrunedEntriesAll(children[1..], dir, fn)
  }

  /** The number of entries in a tree, its root included. */
  function Count(t: Tree): (n: nat)
    ensures n >= 1
    decreases t, 1
  {
    match t
    case Leaf(_) => 1
    case Dir(_, children) => 1 + CountAll(children)
  }

  function CountAll(children: seq<Tree>): nat
    decreases children, 0
  {
    if children == [] then 0 else Count(children[0]) + CountAll(children[1..])
  }

  // ---------------------------------------------------------------------
  // The walk

  /**
   * `WalkDir(path, fn)` on the tree `t` found at `path`: the root's
   * callback comes first; `ErrSkip` from it ends this walk with nil and
   * another error ends it with that error; a root that is not a directory
   * cannot be listed; otherwise the children are walked.  The walk of a
   * directory never returns `ErrSkip`, and its calls follow the pruned
   * pre-order up to and including the first call that fails, whose error
   * it returns; when no call fails it makes them all and returns nil.
   */
  function WalkDir(t: Tree, path: Path, fn: Callback): (r: Walked)
    ensures |r.visited| >= 1 && r.visited[0] == path
    ensures IsSkip(fn(path, t)) ==> r == Walked([path], None)
    ensures Fails(fn(path, t)) ==> r == Walked([path], fn(path, t))
    ensures t.Leaf? && fn(path, t).None? ==> r == Walked([path], Some(ReadDirError(path)))
    ensures t.Dir? ==> WalkedAlong(fn, r, Pruned(t, path, fn), PrunedEntries(t, path, fn))
    ensures |r.visited| <= Count(t)
    decreases t, 1
  {
    var e := fn(path, t);
    if e.Some? then
      if IsSkip(e) then Walked([path], None) else Walked([path], e)
    else
      match t
      case Leaf(_) => Walked([path], Some(ReadDirError(path)))
      case Dir(_, children) =>
        var r := WalkEntries(children, path, fn);
        assert Pruned(t, path, fn) == [path] + PrunedAll(children, path, fn);
        assert PrunedEntries(t, path, fn) == [t] + PrunedEntriesAll(children, path, fn);
        AlongThen(fn, Walked([path], None), r, [path], [t], PrunedAll(children, path, fn), PrunedEntriesAll(children, path, fn));
        Walked([path] + r.visited, r.err)
  }

  /**
   * The loop over the entries (walkdir.go:32-44): a directory is walked by
   * recursion and any other entry gets one callback; `ErrSkip` from either
   * moves on to the next entry and any other error stops the loop and is
   * returned.
   */
  function WalkEntries(children: seq<Tree>, dir: Path, fn: Callback): (r: Walked)
    ensures WalkedAlong(fn, r, PrunedAll(children, dir, fn), PrunedEntriesAll(children, dir, fn))
    ensures |r.visited| <= CountAll(children)
    decreases children, 0
  {
    if children == [] then Walked([], None)
    else
      var c := children[0];
      var cp := ChildPath(dir, c);
      var here := WalkChild(c, cp, fn);
      assert PrunedAll(children, dir, fn) == Pruned(c, cp, fn) + PrunedAll(children[1..], dir, fn);
      assert PrunedEntriesAll(children, dir, fn) == PrunedEntries(c, cp, fn) + PrunedEntriesAll(children[1..], dir, fn);
      if Fails(here.err) then
        AlongStop(fn, here, Pruned(c, cp, fn), PrunedEntries(c, cp, fn), PrunedAll(children[1..], dir, fn),
                  PrunedEntriesAll(children[1..], dir, fn));
        here
      else
        var rest := WalkEntries(children[1..], dir, fn);
        AlongThen(fn, Walked(here.visited, None), rest, Pruned(c, cp, fn), PrunedEntries(c, cp, fn),
                  PrunedAll(children[1..], dir, fn), PrunedEntriesAll(children[1..], dir, fn));
        Walked(here.visited + rest.visited, rest.err)
  }

  /**
   * One step of that loop: a directory is walked by recursion, any other
   * entry gets one callback.  `ErrSkip` from a step counts as nil for the
   * loop.
   */
  function WalkChild(c: Tree, cp: Path, fn: Callback): (here: Walked)
    ensures 1 <= |here.visited| <= Count(c)
    ensures WalkedAlong(fn, Walked(here.visited, if IsSkip(here.err) then None else here.err),
                        Pruned(c, cp, fn), PrunedEntries(c, cp, fn))
    decreases c, 2
  {
    if c.Dir? then WalkDir(c, cp, fn) else Walked([cp], fn(cp, c))
  }

  /**
   * `r` is what a walk returns along the calls `ps`, given the entries `es`,
   * that it makes when nothing stops it: `ErrSkip` is never returned; nil
   * means every call was made and none failed; an error means the calls
   * made are a prefix of `ps` whose last call, and no earlier one, failed
   * with that error.
   */
  predicate WalkedAlong(fn: Callback, r: Walked, ps: seq<Path>, es: seq<Tree>) {
    && |ps| == |es|
    && !IsSkip(r.err)
    && r.visited <= ps
    && (r.err.None? ==> r.visited == ps && PassesFirst(fn, ps, es, |ps|))
    && (r.err.Some? ==>
          && 1 <= |r.visited|
          && r.err == fn(r.visited[|r.visited| - 1], es[|r.visited| - 1])
          && PassesFirst(fn, ps, es, |r.visited| - 1))
  }

  /** A walk that failed along `p1` has failed the same way along `p1 + p2`. */
  lemma AlongStop(fn: Callback, r: Walked, p1: seq<Path>, e1: seq<Tree>, p2: seq<Path>, e2: seq<Tree>)
    requires WalkedAlong(fn, r, p1, e1) && r.err.Some? && |p2| == |e2|
    ensures WalkedAlong(fn, r, p1 + p2, e1 + e2)
  {
    assert (p1 + p2)[..|r.visited|] == p1[..|r.visited|];
    assert (e1 + e2)[|r.visited| - 1] == e1[|r.visited| - 1];
    PassesPrefix(fn, p1, e1, p2, e2, |r.visited| - 1);
  }

  /** A walk that completed `p1` without error, followed by a walk along `p2`, is a walk along `p1 + p2`. */
  lemma AlongThen(fn: Callback, h: Walked, rest: Walked, p1: seq<Path>, e1: seq<Tree>, p2: seq<Path>, e2: seq<Tree>)
    requires WalkedAlong(fn, h, p1, e1) && h.err.None?
    requires WalkedAlong(fn, rest, p2, e2)
    ensures WalkedAlong(fn, Walked(h.visited + rest.visited, rest.err), p1 + p2, e1 + e2)
  {
    var v := h.visited + rest.visited;
    assert (p1 + p2)[..|v|] == p1 + p2[..|rest.visited|];
    if rest.err.Some? {
      assert v[|v| - 1] == rest.visited[|rest.visited| - 1];
      assert (e1 + e2)[|v| - 1] == e2[|rest.visited| - 1];
      PassesConcat(fn, p1, e1, p2, e2, |rest.visited| - 1);
    } else {
      PassesConcat(fn, p1, e1, p2, e2, |p2|);
    }
  }

  /** Calls that all pass, followed by `n` calls that pass, are `|p1| + n` calls that pass. */
  lemma PassesConcat(fn: Callback, p1: seq<Path>, e1: seq<Tree>, p2: seq<Path>, e2: seq<Tree>, n: nat)
    requires |p1| == |e1| && n <= |p2| && n <= |e2|
    requires PassesFirst(fn, p1, e1, |p1|) && PassesFirst(fn, p2, e2, n)
    ensures PassesFirst(fn, p1 + p2, e1 + e2, |p1| + n)
  {
    forall i | 0 <= i < |p1| + n
      ensures !Fails(fn((p1 + p2)[i], (e1 + e2)[i]))
    {
      if i < |p1| {
        assert (p1 + p2)[i] == p1[i] && (e1 + e2)[i] == e1[i];
      } else {
        assert (p1 + p2)[i] == p2[i - |p1|] && (e1 + e2)[i] == e2[i - |p1|];
      }
    }
  }

  /** Passing calls at the front stay passing when more calls follow. */
  lemma PassesPrefix(fn: Callback, p1: seq<Path>, e1: seq<Tree>, p2: seq<Path>, e2: seq<Tree>, n: nat)
    requires n <= |p1| && n <= |e1| && PassesFirst(fn, p1, e1, n)
    ensures PassesFirst(fn, p1 + p2, e1 + e2, n)
  {
    forall i | 0 <= i < n
      ensures !Fails(fn((p1 + p2)[i], (e1 + e2)[i]))
    {
      assert (p1 + p2)[i] == p1[i] && (e1 + e2)[i] == e1[i];
    }
  }

  // ---------------------------------------------------------------------
  // Properties

  /** On a directory whose callbacks never fail, every entry is visited once, in pre-order. */
  lemma {:induction false} NoErrorsVisitsAll(t: Tree, path: Path, fn: Callback)
    requires t.Dir?
    requires forall p, n :: fn(p, n) == None
    ensures WalkDir(t, path, fn) == Walked(PreOrder(t, path), None)
  {
    PrunedIsPreOrderAll(t.children, path, fn);
    NoErrorsEntries(t.children, path, fn);
  }

  lemma {:induction false} NoErrorsEntries(children: seq<Tree>, dir: Path, fn: Callback)
    requires forall p, n :: fn(p, n) == None
    ensures WalkEntries(children, dir, fn).err.None?
    decreases children
  {
    if children != [] {
      var c := children[0];
      if c.Dir? {
        NoErrorsEntries(c.children, ChildPath(dir, c), fn);
      }
      NoErrorsEntries(children[1..], dir, fn);
    }
  }

  lemma {:induction false} PrunedIsPreOrder(t: Tree, path: Path, fn: Callback)
    requires forall p, n :: fn(p, n) == None
    ensures Pruned(t, path, fn) == PreOrder(t, path)
    decreases t, 1
  {
    if t.Dir? {
      PrunedIsPreOrderAll(t.children, path, fn);
    }
  }

  lemma {:induction false} PrunedIsPreOrderAll(children: seq<Tree>, dir: Path, fn: Callback)
    requires forall p, n :: fn(p, n) == None
    ensures PrunedAll(children, dir, fn) == PreOrderAll(children, dir)
    decreases children, 0
  {
    if children != [] {
      PrunedIsPreOrder(children[0], ChildPath(dir, children[0]), fn);
      PrunedIsPreOrderAll(children[1..], dir, fn);
    }
  }

  /**
   * The first failing call along the pruned pre-order ends the walk: the
   * calls up to and including it are made, and its error is returned.
   */
  lemma StopsAtFirstFailure(t: Tree, path: Path, fn: Callback, k: nat)
    requires t.Dir? && k < |Pruned(t, path, fn)|
    requires Fails(fn(Pruned(t, path, fn)[k], PrunedEntries(t, path, fn)[k]))
    requires PassesFirst(fn, Pruned(t, path, fn), PrunedEntries(t, path, fn), k)
    ensures WalkDir(t, path, fn) == Walked(Pruned(t, path, fn)[..k + 1], fn(Pruned(t, path, fn)[k], PrunedEntries(t, path, fn)[k]))
  {
    AlongFirstFailure(fn, WalkDir(t, path, fn), Pruned(t, path, fn), PrunedEntries(t, path, fn), k);
  }

  /** A walk along `ps` whose k-th call is the first to fail stops right after it, with its error. */
  lemma AlongFirstFailure(fn: Callback, r: Walked, ps: seq<Path>, es: seq<Tree>, k: nat)
    requires WalkedAlong(fn, r, ps, es) && k < |ps|
    requires Fails(fn(ps[k], es[k])) && PassesFirst(fn, ps, es, k)
    ensures r == Walked(ps[..k + 1], fn(ps[k], es[k]))
  {
    forall j | k < j <= |ps|
      ensures !PassesFirst(fn, ps, es, j)
    {
      assert Fails(fn(ps[k], es[k]));
    }
    var m := |r.visited|;
    assert r.err.Some? && r.visited == ps[..m];
    assert Fails(fn(ps[m - 1], es[m - 1]));
  }

  /** A walk of a directory returns nil exactly when no call along the pruned pre-order fails. */
  lemma NilIffNoFailure(t: Tree, path: Path, fn: Callback)
    requires t.Dir?
    ensures WalkDir(t, path, fn).err.None? <==> PassesFirst(fn, Pruned(t, path, fn), PrunedEntries(t, path, fn), |Pruned(t, path, fn)|)
  {
  }

  /** A directory whose callback returns `ErrSkip` hides all of its descendants. */
  lemma SkippedDirectoryHidesSubtree(t: Tree, path: Path, fn: Callback)
    requires t.Dir? && IsSkip(fn(path, t))
    ensures Pruned(t, path, fn) == [path]
    ensures WalkDir(t, path, fn) == Walked([path], None)
  {
  }
}
